=== FILE: README.md ===
# PonySDK synchronization core in Dafny

This project models the server side of PonySDK's UI synchronization. Every UI
node is a `PObject`. The session gives it an identifier when it is built. It
enters a window once, and at that point it sends exactly one CREATE
instruction to the remote terminal. After that it sends ADD, UPDATE,
ADD_HANDLER, REMOVE_HANDLER and REMOVE instructions. Each instruction is an
ordered list of (tag, value) fields. The WINDOW_ID field comes first, and it
is left out when the window is the main window. The object also routes
inbound native events to its handlers. Two widgets are built on these
primitives and are also modelled: the tab layout panel and the horizontal
panel.

The model is a functional state machine. Objects and panels are immutable
records. Each operation returns either the exception the Java code would
throw (`Outcomes.Result`) or the new state together with the instructions it
emitted (`PObjects.Step`). The `beginObject`/`parse`/`endObject` calls of the
older widgets and the writer lambdas of the newer ones both become one
`Encoder.Command`, written by `Encoder.Encode`. Its partner `Encoder.Decode`
is the remote side's reading of an instruction. Decoding gives back every
well-formed command (`Encoder.DecodeEncode`), and every instruction the
decoder accepts is the encoding of exactly one command (`Encoder.EncodeDecode`).
Every object-level contract describes what it emits through `Decode`.

Modules:
- `Outcomes`: the option and result types, plus the exceptions the code throws.
- `Wire`: the tags, the field values and the window constants.
- `Encoder`: field order, window-tag placement, and the round trips.
- `Events`: inbound event maps and handler calls.
- `Registry`: the per-session identifier counter.
- `PObjects`: the base object.
- `Lifecycle`: properties of any sequence of calls on one object.
- `TabLayoutPanels` and `HorizontalPanels`: the two widgets.

Window identifiers are `EMPTY_WINDOW_ID = -1` and `MAIN_WINDOW_ID = 0`.
`PWindow` is not part of this model, and no proof depends on these values
except that they differ.

Three behaviours of the code worth knowing:
- `saveUpdate` and the other save helpers do not check that the object was
  created. An object with no window writes WINDOW_ID = EMPTY_WINDOW_ID.
- An object constructed with a window is never created by `attach` to that
  same window. `attach` returns false, and no CREATE is written.
- `saveRemoveHandler` takes a handler type but never writes it. It writes
  only TYPE_REMOVE_HANDLER = ID and the optional model field, whereas
  `saveAddHandler` writes the type. `PObjects.SaveRemoveHandler` has no type
  argument for this reason.

## Model

| member | source | states |
|---|---|---|
| Encoder.Encode | ponysdk/src-core/main/java/com/ponysdk/ui/server/basic/PObject.java:225-234 | a WINDOW_ID field opens the instruction exactly when the window is not the main window, it carries that window, and the operation tag comes right after it |
| Encoder.DecodeEncode | ponysdk/src-core/main/java/com/ponysdk/ui/server/basic/PObject.java:161-234 | the remote reading of every instruction shape gives back the command written: window, object id, parent id and optional fields in their fixed order |
| Encoder.EncodeDecode | ponysdk/src-core/main/java/com/ponysdk/ui/server/basic/PObject.java:161-234 | every instruction the remote side accepts is the encoding of exactly one well-formed command, so the field order is canonical |
| Encoder.AddSecondModelAlone | ponysdk/src-core/main/java/com/ponysdk/ui/server/basic/PObject.java:211-212 | an ADD whose first model is null but whose second is not writes the same fields as the one-model form |
| Registry.Allocate | ponysdk/src-core/main/java/com/ponysdk/ui/server/basic/PObject.java:44-59 | a new identifier is above every registered one and is registered |
| Registry.AllocateMany | ponysdk/src-core/main/java/com/ponysdk/ui/server/basic/PObject.java:44 | identifiers handed out in a row strictly increase and stay within the counter's range |
| Registry.AllocatedIdsAreFresh | ponysdk/src-core/main/java/com/ponysdk/ui/server/basic/PObject.java:44 | identifiers never repeat within a session and never reuse a registered one |
| PObjects.Construct | ponysdk/src-core/main/java/com/ponysdk/ui/server/basic/PObject.java:44-61 | a new object has a fresh registered id, the given window (EMPTY by default), is not initialized, unbound and without handlers |
| PObjects.CreateInstruction | ponysdk/src-core/main/java/com/ponysdk/ui/server/basic/PObject.java:67-73 | CREATE is [WINDOW_ID unless main], TYPE_CREATE=id, WIDGET_TYPE, then the enrichment fields |
| PObjects.Init | ponysdk/src-core/main/java/com/ponysdk/ui/server/basic/PObject.java:63-76 | the first call emits one CREATE and sets initialized; later calls emit nothing; nothing else changes |
| PObjects.AttachTo | ponysdk/src-core/main/java/com/ponysdk/ui/server/basic/PObject.java:82-91 | on an admissible window the object ends up in it; it becomes initialized when it moved out of EMPTY into a real window; otherwise its initialized flag is unchanged |
| PObjects.Attach | ponysdk/src-core/main/java/com/ponysdk/ui/server/basic/PObject.java:82-91 | from EMPTY into a real window: window set, CREATE emitted unless already initialized, returns true; same window: false and nothing emitted; another window: IllegalAccess with no change |
| PObjects.SaveAddHandler | ponysdk/src-core/main/java/com/ponysdk/ui/server/basic/PObject.java:161-168 | one instruction reading as ADD_HANDLER of the handler type for this object in its window |
| PObjects.SaveRemoveHandler | ponysdk/src-core/main/java/com/ponysdk/ui/server/basic/PObject.java:170-181 | one instruction reading as REMOVE_HANDLER=id with the optional model field |
| PObjects.SaveRemove | ponysdk/src-core/main/java/com/ponysdk/ui/server/basic/PObject.java:183-190 | one instruction reading as TYPE_REMOVE=object id followed by PARENT_OBJECT_ID=parent |
| PObjects.SaveAdd | ponysdk/src-core/main/java/com/ponysdk/ui/server/basic/PObject.java:192-215 | one instruction reading as TYPE_ADD=object, PARENT_OBJECT_ID=parent, then model1 and model2 when present |
| PObjects.SaveUpdate | ponysdk/src-core/main/java/com/ponysdk/ui/server/basic/PObject.java:217-234 | one instruction, not two, reading as TYPE_UPDATE=id with the mandatory field and the optional second one |
| PObjects.BindTerminalFunction | ponysdk/src-core/main/java/com/ponysdk/ui/server/basic/PObject.java:102-110 | fails with IllegalAccess exactly when already bound; otherwise records the name and emits one UPDATE carrying BIND=name |
| PObjects.SendToNative | ponysdk/src-core/main/java/com/ponysdk/ui/server/basic/PObject.java:112-118 | fails with IllegalAccess exactly when unbound; otherwise emits one UPDATE carrying NATIVE=payload and changes nothing |
| PObjects.AddNativeHandler | ponysdk/src-core/main/java/com/ponysdk/ui/server/basic/PObject.java:120-125 | the handler is registered after all earlier ones and nothing else changes |
| PObjects.NativeCalls | ponysdk/src-core/main/java/com/ponysdk/ui/server/basic/PObject.java:131-134 | one native event per handler, in registration order, all with the same source and payload |
| PObjects.OnClientData | ponysdk/src-core/main/java/com/ponysdk/ui/server/basic/PObject.java:127-137 | with handlers and the NATIVE key every handler is called in order with the payload; without either nothing happens; a non-object payload fails the cast |
| PObjects.NativeHandlerSeesPayloadOnce | ponysdk/src-core/main/java/com/ponysdk/ui/server/basic/PObject.java:120-137 | a newly registered handler receives an inbound native payload exactly once |
| PObjects.Equals | ponysdk/src-core/main/java/com/ponysdk/ui/server/basic/PObject.java:147-159 | an object never equals null, and it equals another exactly when both have the same kind and the same id, so it equals itself |
| PObjects.EqualsIsEquivalence | ponysdk/src-core/main/java/com/ponysdk/ui/server/basic/PObject.java:147-159 | equals is reflexive, symmetric and transitive, and false against null |
| PObjects.HashCodeAsWritten | ponysdk/src-core/main/java/com/ponysdk/ui/server/basic/PObject.java:139-145 | the hash as written is 31, whatever the id |
| PObjects.HashCodeAsWrittenIgnoresId | ponysdk/src-core/main/java/com/ponysdk/ui/server/basic/PObject.java:139-145 | the hash as written is 31 for every object |
| PObjects.HashCodeAsWrittenCollides | ponysdk/src-core/main/java/com/ponysdk/ui/server/basic/PObject.java:139-159 | two objects that equals tells apart get the same hash as written |
| PObjects.HashCode | ponysdk/src-core/main/java/com/ponysdk/ui/server/basic/PObject.java:139-145 | the intended hash is an int equal to 31 + ID, wrapped to 32 bits |
| PObjects.HashCodeSeparates | ponysdk/src-core/main/java/com/ponysdk/ui/server/basic/PObject.java:139-159 | the intended hash agrees with equals and differs for objects with different ids |
| Lifecycle.SaveInstruction | ponysdk/src-core/main/java/com/ponysdk/ui/server/basic/PObject.java:161-215 | saveAdd, saveRemove, saveAddHandler and saveRemoveHandler each write one instruction tagged with the object's window that reads as neither CREATE nor UPDATE |
| Lifecycle.CreatedAtMostOnce | ponysdk/src-core/main/java/com/ponysdk/ui/server/basic/PObject.java:63-91 | over any sequence of calls, exactly one CREATE if the object became initialized and none otherwise; an initialized object never emits CREATE again |
| Lifecycle.WindowNeverChanges | ponysdk/src-core/main/java/com/ponysdk/ui/server/basic/PObject.java:82-91 | once an object has a window, no sequence of calls changes it, and every instruction it emits carries the window tag for that window |
| Lifecycle.BoundAtMostOnce | ponysdk/src-core/main/java/com/ponysdk/ui/server/basic/PObject.java:102-110 | over any sequence of calls whose updates carry no BIND field, in either the first or the second field, BIND is written once when the object becomes bound and never otherwise, and a binding is never replaced |
| Lifecycle.EqualAcrossCalls | ponysdk/src-core/main/java/com/ponysdk/ui/server/basic/PObject.java:147-159 | whatever calls are made on an object, equals holds in both directions between its state before and after them |
| Lifecycle.ApplyTagsWindow | ponysdk/src-core/main/java/com/ponysdk/ui/server/basic/PObject.java:69 | every instruction emitted by a call carries the window tag for the object's window |
| TabLayoutPanels.NewTabLayoutPanel | ponysdk/src/main/java/com/ponysdk/core/ui/basic/PTabLayoutPanel.java:76-94 | a new panel is a fresh TAB_LAYOUT_PANEL object with no window, not initialized, unbound and with no native handlers, and it has no tabs, handlers, selection or duration |
| TabLayoutPanels.Init0 | ponysdk/src/main/java/com/ponysdk/core/ui/basic/PTabLayoutPanel.java:85-89 | init0 emits ADD_HANDLER for HANDLER_SELECTION on the panel |
| TabLayoutPanels.AttachPanel | ponysdk/src/main/java/com/ponysdk/core/ui/basic/PTabLayoutPanel.java:85-89 | attaching a new panel emits CREATE and then the selection subscription; otherwise as the base attach |
| TabLayoutPanels.InsertText | ponysdk/src/main/java/com/ponysdk/core/ui/basic/PTabLayoutPanel.java:122-135 | a child of another window fails with IllegalAccess and nothing changes; otherwise the child becomes tab i, is attached to the panel's window, and the ADD of child under panel carries TAB_TEXT then BEFORE_INDEX=i |
| TabLayoutPanels.InsertWidgetAsWrittenLeavesOrphanTab | ponysdk/src/main/java/com/ponysdk/core/ui/basic/PTabLayoutPanel.java:104-120 | as written, a tab widget from another window throws after the child is already a tab, and no ADD is emitted |
| TabLayoutPanels.InsertWidgetAsWritten | ponysdk/src/main/java/com/ponysdk/core/ui/basic/PTabLayoutPanel.java:104-120 | insert with a tab widget as the code does it: the panel itself gives IllegalArgument, and a foreign child or a bad index fails with the panel unchanged. A foreign tab widget gives IllegalAccess with the child already inserted. A failure emits nothing. On success the tab widget's attach, then the child's, then the ADD with TAB_WIDGET then BEFORE_INDEX are written, and both widgets are in the panel's window |
| TabLayoutPanels.InsertWidget | ponysdk/src/main/java/com/ponysdk/core/ui/basic/PTabLayoutPanel.java:104-120 | fails, changing nothing, for the panel itself, a foreign child, a foreign tab widget or a bad index; otherwise the tab widget is attached before the child and the ADD carries TAB_WIDGET=tab id then BEFORE_INDEX |
| TabLayoutPanels.InsertWidgetAgreesWithAsWritten | ponysdk/src/main/java/com/ponysdk/core/ui/basic/PTabLayoutPanel.java:104-120 | the corrected insert throws the same exceptions as the code as written and, where that completes, gives the same results |
| TabLayoutPanels.FirstTabInMainWindow | ponysdk/src/main/java/com/ponysdk/core/ui/basic/PTabLayoutPanel.java:122-135 | a new child inserted into a main-window panel emits its CREATE and then the ADD, neither with a window tag |
| TabLayoutPanels.AddText | ponysdk/src/main/java/com/ponysdk/core/ui/basic/PTabLayoutPanel.java:145-147 | add(w, text) fails, with IllegalAccess, only for a child of another window. Otherwise only the children change, by appending the child. The child is attached to the panel's window, the attach's instructions come first, and the last is the ADD with TAB_TEXT then BEFORE_INDEX equal to the old count |
| TabLayoutPanels.AddWidget | ponysdk/src/main/java/com/ponysdk/core/ui/basic/PTabLayoutPanel.java:149-151 | add(w, tabWidget) fails exactly for the panel itself, a foreign child or a foreign tab widget, and a failure emits nothing. Once the child checks pass, the child is appended, even when a foreign tab widget then throws; otherwise the panel is unchanged. On success the tab widget's attach, then the child's, then the ADD with TAB_WIDGET and BEFORE_INDEX equal to the old count |
| TabLayoutPanels.AddWidgetCorrected | ponysdk/src/main/java/com/ponysdk/core/ui/basic/PTabLayoutPanel.java:149-151 | add over the corrected insert: the same failures, each leaving the panel unchanged. On success only the children change, by appending the child, and the tab widget's attach, then the child's, then the ADD with BEFORE_INDEX equal to the old count are written |
| TabLayoutPanels.AddIsInsertAtCount | ponysdk/src/main/java/com/ponysdk/core/ui/basic/PTabLayoutPanel.java:145-151 | each add form equals its insert at the current widget count: the text form, the tab-widget form as written and the corrected one |
| TabLayoutPanels.AddWithoutTab | ponysdk/src/main/java/com/ponysdk/core/ui/basic/PTabLayoutPanel.java:159-162 | add(w) without a tab always fails with UnsupportedOperation |
| TabLayoutPanels.SelectTabAsWritten | ponysdk/src/main/java/com/ponysdk/core/ui/basic/PTabLayoutPanel.java:153-157 | fails with IndexOutOfBounds exactly when index is at least the widget count; otherwise records the index and emits one UPDATE with SELECTED_INDEX |
| TabLayoutPanels.SelectTabAsWrittenAcceptsNegative | ponysdk/src/main/java/com/ponysdk/core/ui/basic/PTabLayoutPanel.java:154 | as written, index -1 is accepted and recorded |
| TabLayoutPanels.SelectTab | ponysdk/src/main/java/com/ponysdk/core/ui/basic/PTabLayoutPanel.java:153-157 | fails, changing nothing, unless 0 <= index < widget count; otherwise records it and emits one UPDATE with SELECTED_INDEX=index |
| TabLayoutPanels.SelectTabAgreesWithAsWritten | ponysdk/src/main/java/com/ponysdk/core/ui/basic/PTabLayoutPanel.java:153-157 | for non-negative indices the corrected and as-written selection coincide |
| TabLayoutPanels.OnSelection | ponysdk/src/main/java/com/ponysdk/core/ui/basic/PTabLayoutPanel.java:202-205 | the selected index becomes the event's item and nothing else changes |
| TabLayoutPanels.OnSelectionMatchesSelectTab | ponysdk/src/main/java/com/ponysdk/core/ui/basic/PTabLayoutPanel.java:153-157 | for a tab in range, a selection reported by the remote side gives the state that selectTab of that tab gives, and repeating it changes nothing |
| TabLayoutPanels.RemoveFirst | ponysdk/src/main/java/com/ponysdk/core/ui/basic/PTabLayoutPanel.java:170-183 | removal drops one occurrence of the handler, if any, and keeps every other one |
| TabLayoutPanels.RemoveFirstKeepsOrder | ponysdk/src/main/java/com/ponysdk/core/ui/basic/PTabLayoutPanel.java:170-183 | removal takes out exactly the first occurrence and keeps the order of the rest |
| TabLayoutPanels.AddBeforeSelectionHandler | ponysdk/src/main/java/com/ponysdk/core/ui/basic/PTabLayoutPanel.java:164-168 | appends the handler and emits ADD_HANDLER for HANDLER_BEFORE_SELECTION on every call |
| TabLayoutPanels.RemoveBeforeSelectionHandler | ponysdk/src/main/java/com/ponysdk/core/ui/basic/PTabLayoutPanel.java:170-173 | an absent handler leaves the panel unchanged; otherwise its first occurrence is removed from the before-selection list and the rest keep their order; nothing else changes and nothing is emitted |
| TabLayoutPanels.AddSelectionHandler | ponysdk/src/main/java/com/ponysdk/core/ui/basic/PTabLayoutPanel.java:175-178 | appends the handler; nothing else changes and nothing is emitted |
| TabLayoutPanels.RemoveSelectionHandler | ponysdk/src/main/java/com/ponysdk/core/ui/basic/PTabLayoutPanel.java:180-183 | an absent handler leaves the panel unchanged; otherwise its first occurrence is removed from the selection list and the rest keep their order; nothing else changes and nothing is emitted |
| TabLayoutPanels.AddThenRemoveSelectionHandler | ponysdk/src/main/java/com/ponysdk/core/ui/basic/PTabLayoutPanel.java:175-183 | adding an unregistered handler and removing it restores the panel |
| TabLayoutPanels.SelectionCalls | ponysdk/src/main/java/com/ponysdk/core/ui/basic/PTabLayoutPanel.java:187-196 | every handler in order receives the event's integer; with no handlers nothing is read; a non-integer fails the cast |
| TabLayoutPanels.OnClientData | ponysdk/src/main/java/com/ponysdk/core/ui/basic/PTabLayoutPanel.java:185-200 | the selection key goes to the selection handlers, else the before-selection key to the before-selection handlers, else the event goes to the base object |
| TabLayoutPanels.SelectionTakesPrecedence | ponysdk/src/main/java/com/ponysdk/core/ui/basic/PTabLayoutPanel.java:186-192 | with both keys present only the selection handlers run, each once, in order |
| TabLayoutPanels.SetAnimationDuration | ponysdk/src/main/java/com/ponysdk/core/ui/basic/PTabLayoutPanel.java:233-237 | an equal duration changes and emits nothing; a new one is stored and emits one UPDATE with ANIMATION_DURATION in milliseconds |
| TabLayoutPanels.SetAnimationDurationIdempotent | ponysdk/src/main/java/com/ponysdk/core/ui/basic/PTabLayoutPanel.java:233-237 | repeating a duration is silent |
| TabLayoutPanels.AnimateTabs | ponysdk/src/main/java/com/ponysdk/core/ui/basic/PTabLayoutPanel.java:221-224 | emits one UPDATE with ANIMATE in milliseconds and changes nothing |
| TabLayoutPanels.SetAnimationVertical | ponysdk/src/main/java/com/ponysdk/core/ui/basic/PTabLayoutPanel.java:217-219 | emits one UPDATE with VERTICAL and changes nothing |
| HorizontalPanels.GetWidgetType | ponysdk/src/main/java/com/ponysdk/ui/server/basic/PHorizontalPanel.java:41-44 | the widget type is always HORIZONTAL_PANEL |
| HorizontalPanels.NewHorizontalPanel | ponysdk/src/main/java/com/ponysdk/ui/server/basic/PHorizontalPanel.java:38-39 | a new panel is a fresh HORIZONTAL_PANEL object with no window, not initialized, unbound and with no native handlers, aligned left and top |
| HorizontalPanels.NewPanelCreatedAsHorizontalPanel | ponysdk/src/main/java/com/ponysdk/ui/server/basic/PHorizontalPanel.java:41-44 | attaching a new panel emits one CREATE of kind HORIZONTAL_PANEL |
| HorizontalPanels.SetHorizontalAlignment | ponysdk/src/main/java/com/ponysdk/ui/server/basic/PHorizontalPanel.java:46-51 | an equal value emits nothing; a new value is stored and emits one UPDATE with HORIZONTAL_ALIGNMENT; the vertical axis is untouched |
| HorizontalPanels.SetVerticalAlignment | ponysdk/src/main/java/com/ponysdk/ui/server/basic/PHorizontalPanel.java:53-58 | the same with VERTICAL_ALIGNMENT, leaving the horizontal axis untouched |
| HorizontalPanels.GettersReturnLastStored | ponysdk/src/main/java/com/ponysdk/ui/server/basic/PHorizontalPanel.java:47-66 | after any sequence of setter calls each getter returns the last value set on its own axis, or the default |
| HorizontalPanels.UnchangedValuesEmitNothing | ponysdk/src/main/java/com/ponysdk/ui/server/basic/PHorizontalPanel.java:47-57 | any number of setter calls with the current values emits nothing and changes nothing |

## Findings

| source | as written | input that shows it | evidently intended | confidence | as-written member | corrected member |
|---|---|---|---|---|---|---|
| ponysdk/src-core/main/java/com/ponysdk/ui/server/basic/PObject.java:143 | `ID ^ ID >>> 32` on an int shifts by 32 mod 32 = 0, so the term is 0 and every hash is 31 | two objects with ids 1 and 2 both hash to 31 | a hash that depends on the id: 31 + ID, wrapped to 32 bits | high; not executed | PObjects.HashCodeAsWrittenCollides | PObjects.HashCodeSeparates |
| ponysdk/src/main/java/com/ponysdk/core/ui/basic/PTabLayoutPanel.java:154 | only `index >= getWidgetCount()` is rejected | selectTab(-1) is recorded and SELECTED_INDEX=-1 is sent | reject negative indices too | medium; not executed | TabLayoutPanels.SelectTabAsWrittenAcceptsNegative | TabLayoutPanels.SelectTab |
| ponysdk/src/main/java/com/ponysdk/core/ui/basic/PTabLayoutPanel.java:107-113 | the tab widget's window is only checked by its attach, after the child was inserted among the children | panel and child in the main window, tab widget attached to window 2: the exception comes after the insertion, and no ADD is sent | check the tab widget's window before any change, as is done for the child | medium; not executed | TabLayoutPanels.InsertWidgetAsWrittenLeavesOrphanTab | TabLayoutPanels.InsertWidget |

`TabLayoutPanels.AddWidget` follows the code as written. `TabLayoutPanels.AddWidgetCorrected` is the same call over the corrected insert.

## Left out

- The transaction buffer, `Txn`, `Parser` and the byte encoding are not part of this model. Each operation returns the instructions it writes, in order. A transaction is the concatenation of these lists.
- `UIContext` is not part of this model. Its counter is `Registry.Session`, and its lookup of objects by id is not modelled. Per-session locking and concurrency are left out, because everything modelled is sequential.
- `PObject` identifiers are unbounded integers. Wrap-around of the Java int counter is not modelled. `PObjects.HashCodeAsWritten` requires the id to be within the int range; `PObjects.HashCode` wraps any id to an int.
- Registry.AllocateMany: whether `nextID()` starts at any particular value is not modelled, because `UIContext` lies outside the modelled classes.
- PObjects.EqualsIsEquivalence: compares the widget kind where the code compares the Java class, because classes are not modelled.
- Null arguments are not modelled, and the code does the following with them:
  - `bindTerminalFunction(null)` writes an UPDATE with BIND and a null name, and it leaves the object unbound. A later call binds again and writes BIND a second time.
  - `setHorizontalAlignment(null)` and `setVerticalAlignment(null)` store null. They then throw a NullPointerException while building the UPDATE, so nothing is written.
  - `setAnimationDuration(null)` returns without effect while no duration is set. Otherwise it stores null and then throws in the same way.
  - A null child or tab widget throws a NullPointerException.
- PObjects.BindTerminalFunction: function names are never null, so the unbound-after-binding case of `bindTerminalFunction(null)` is not modelled.
- Lifecycle.BoundAtMostOnce: does not cover `bindTerminalFunction(null)`, which writes BIND without binding.
- HorizontalPanels.SetHorizontalAlignment: a null alignment is not modelled. In the code, null ends up stored without any UPDATE being written.
- HorizontalPanels.SetVerticalAlignment: a null alignment is not modelled. In the code, null ends up stored without any UPDATE being written.
- TabLayoutPanels.SetAnimationDuration: a null duration is not modelled. In the code, once a duration has been set, null ends up stored without any UPDATE being written.
- Enumeration wire values are kept symbolic because the enums' wire codes are not modelled: `WidgetType.getValue()`, `HandlerModel.getValue()` and the alignment values. The alignment enums are reduced to three values each.
- Durations are whole, non-negative milliseconds. The `(int) toMillis()` narrowing is left out. Java accepts negative durations, and `setAnimationDuration` and `animate` then send a negative count; the model cannot express this.
- JSON payloads are opaque handles. Handlers are opaque identifiers, and a dispatch is the ordered list of calls it makes.
- `ListenerCollection` is not modelled. Native handlers are an append-only sequence, and duplicate registrations are kept.
- TabLayoutPanels.InsertText: `child.removeFromParent()` is not modelled, and neither is `adopt`. This also affects TabLayoutPanels.AddText, TabLayoutPanels.InsertWidget, TabLayoutPanels.InsertWidgetAsWritten, TabLayoutPanels.AddWidget and TabLayoutPanels.AddWidgetCorrected. `PComplexPanel` is not part of this model. Two things follow:
  - A child that is already a tab of this panel is listed twice in the model. In the code it moves.
  - `add` computes the widget count before that removal. So in the code, re-adding an existing tab inserts one position past the end of the shortened list. The model never fails on that index.
- `asWidgetOrNull` is left out. `assertNotMe` is modelled as an IllegalArgument failure when the child is the panel itself. An out-of-range `beforeIndex` is modelled as IndexOutOfBounds before any change, The model takes `children.insert` to throw IndexOutOfBoundsException there.
- The later `PObject` revision is outside the model, including `attach(window, frame)` and `init0`. The frame argument is dropped. `init0` is assumed to run right after CREATE, and only when the attach created the object.
- TabLayoutPanels.Init0: `super.init0()` is assumed to write nothing, so the panel's init0 writes only the selection subscription.
- TabLayoutPanels.InsertWidget: the tab widget and the child are taken to be two different objects.
- TabLayoutPanels.InsertWidgetAsWritten: the tab widget and the child are taken to be two different objects. This also applies to TabLayoutPanels.AddWidget and TabLayoutPanels.AddWidgetCorrected. Passing the same unattached widget as both makes the model write its CREATE twice. The code writes it once, because the second `attach` finds the window already set and returns false.
- TabLayoutPanels.OnSelection is a plain update. `PTabLayoutPanel` never registers itself as its own selection handler.
- Lifecycle.CreatedAtMostOnce: a call that throws is taken to leave the object unchanged and emit nothing. This holds for every failing path of `PObject`, which always checks before it mutates.
- Lifecycle.BoundAtMostOnce: assumes no subclass writes a BIND field through its own `saveUpdate`.
- Left out as plumbing: HTTP bootstrap serving, server start-up and reflective application loading, as well as `toString`.

=== FILE: encoder.dfy ===
/** The instruction encoder: one Command is written as one instruction,
    window tag first (unless the window is the main one), then the
    operation tag and its operands in a fixed order. Decode is the remote
    side's reading of an instruction and is the encoder's inverse. */
module Encoder {
  import opened Outcomes
  import opened Wire

  /** The six instruction shapes the object layer writes. */
  datatype Command =
    | Create(window: int, id: int, widget: WidgetType, enrichment: seq<Field>)
    | Add(window: int, objectId: int, parentId: int, first: Option<Field>, second: Option<Field>)
    | Update(window: int, id: int, field: Field, second: Option<Field>)
    | AddHandler(window: int, handler: HandlerModel, id: int)
    | RemoveHandler(window: int, id: int, model: Option<Field>)
    | Remove(window: int, objectId: int, parentId: int)

  /** An ADD whose first optional model is absent but whose second is
      present writes the same fields as the one-model form; every other
      command has a unique encoding. */
  predicate WellFormed(c: Command) {
    c.Add? ==> (c.first.None? ==> c.second.None?)
  }

  /** The window rule: a WindowId field opens the instruction exactly when
      the window is not the main one, and it carries that window. */
  predicate WindowTagged(ins: Instruction, window: int) {
    && |ins| > 0
    && (ins[0].tag == WindowId <==> window != MAIN_WINDOW_ID)
    && (window != MAIN_WINDOW_ID ==> ins[0].value == IntV(window))
  }

  function WindowPrefix(window: int): seq<Field> {
    if window != MAIN_WINDOW_ID then [Field(WindowId, IntV(window))] else []
  }

  function Optional(f: Option<Field>): seq<Field> {
    if f.Some? then [f.value] else []
  }

  /** The fields after the window tag, in the order the object layer writes them. */
  function Body(c: Command): seq<Field> {
    match c
    case Create(_, id, widget, extra) =>
      [Field(TypeCreate, IntV(id)), Field(WidgetKind, WidgetV(widget))] + extra
    case Add(_, objectId, parentId, first, second) =>
      [Field(TypeAdd, IntV(objectId)), Field(ParentObjectId, IntV(parentId))] + Optional(first) + Optional(second)
    case Update(_, id, field, second) =>
      [Field(TypeUpdate, IntV(id)), field] + Optional(second)
    case AddHandler(_, handler, id) =>
      [Field(TypeAddHandler, HandlerV(handler)), Field(ObjectId, IntV(id))]
    case RemoveHandler(_, id, extra) =>
      [Field(TypeRemoveHandler, IntV(id))] + Optional(extra)
    case Remove(_, objectId, parentId) =>
      [Field(TypeRemove, IntV(objectId)), Field(ParentObjectId, IntV(parentId))]
  }

  /** The tag that identifies the operation of a command. */
  function OperationTag(c: Command): Tag {
    match c
    case Create(_, _, _, _) => TypeCreate
    case Add(_, _, _, _, _) => TypeAdd
    case Update(_, _, _, _) => TypeUpdate
    case AddHandler(_, _, _) => TypeAddHandler
    case RemoveHandler(_, _, _) => TypeRemoveHandler
    case Remove(_, _, _) => TypeRemove
  }

  function Encode(c: Command): (ins: Instruction)
    ensures WindowTagged(ins, c.window)
    ensures var k := if c.window != MAIN_WINDOW_ID then 1 else 0;
            k < |ins| && ins[k].tag == OperationTag(c)
  {
    WindowPrefix(c.window) + Body(c)
  }

  /** The remote reading of the fields that follow the window tag. */
  function DecodeBody(window: int, b: seq<Field>): Option<Command> {
    if |b| == 0 then None
    else
      var head := b[0];
      match head.tag
      case TypeCreate =>
        if head.value.IntV? && |b| >= 2 && b[1].tag == WidgetKind && b[1].value.WidgetV?
        then Some(Create(window, head.value.i, b[1].value.w, b[2..]))
        else None
      case TypeAdd =>
        if head.value.IntV? && 2 <= |b| <= 4 && b[1].tag == ParentObjectId && b[1].value.IntV?
        then Some(Add(window, head.value.i, b[1].value.i,
                      if |b| > 2 then Some(b[2]) else None,
                      if |b| > 3 then Some(b[3]) else None))
        else None
      case TypeUpdate =>
        if head.value.IntV? && 2 <= |b| <= 3
        then Some(Update(window, head.value.i, b[1], if |b| > 2 then Some(b[2]) else None))
        else None
      case TypeAddHandler =>
        if head.value.HandlerV? && |b| == 2 && b[1].tag == ObjectId && b[1].value.IntV?
        then Some(AddHandler(window, head.value.h, b[1].value.i))
        else None
      case TypeRemoveHandler =>
        if head.value.IntV? && |b| <= 2
        then Some(RemoveHandler(window, head.value.i, if |b| > 1 then Some(b[1]) else None))
        else None
      case TypeRemove =>
        if head.value.IntV? && |b| == 2 && b[1].tag == ParentObjectId && b[1].value.IntV?
        then Some(Remove(window, head.value.i, b[1].value.i))
        else None
      case _ => None
  }

  /** The remote reading of one instruction: an absent window tag means the
      main window; a window tag naming the main window is never written. */
  function Decode(ins: Instruction): Option<Command> {
    if |ins| > 0 && ins[0].tag == WindowId then
      if ins[0].value.IntV? && ins[0].value.i != MAIN_WINDOW_ID
      then DecodeBody(ins[0].value.i, ins[1..])
      else None
    else DecodeBody(MAIN_WINDOW_ID, ins)
  }

  /** Decoding the body of a well-formed command gives the command back. */
  lemma DecodeBodyOfBody(c: Command)
    requires WellFormed(c)
    ensures DecodeBody(c.window, Body(c)) == Some(c)
  {
    var b := Body(c);
    match c
    case Create(w, id, widget, extra) =>
      assert b[2..] == extra;
    case Add(w, o, p, first, second) =>
      if first.Some? && second.Some? {
        assert b == [b[0], b[1], first.value, second.value];
      }
    case Update(w, id, field, second) =>
    case AddHandler(w, h, id) =>
    case RemoveHandler(w, id, extra) =>
    case Remove(w, o, p) =>
  }

  /** Round trip: the remote runtime reads back exactly the command written. */
  lemma DecodeEncode(c: Command)
    requires WellFormed(c)
    ensures Decode(Encode(c)) == Some(c)
  {
    var ins := Encode(c);
    DecodeBodyOfBody(c);
    if c.window != MAIN_WINDOW_ID {
      assert ins[1..] == Body(c);
    } else {
      assert ins == Body(c);
    }
  }

  /** The converse round trip: every instruction the remote runtime accepts
      is the encoding of a well-formed command, so the encoding is canonical. */
  lemma EncodeDecode(ins: Instruction)
    requires Decode(ins).Some?
    ensures WellFormed(Decode(ins).value)
    ensures Encode(Decode(ins).value) == ins
  {
    var c := Decode(ins).value;
    var b := if |ins| > 0 && ins[0].tag == WindowId then ins[1..] else ins;
    assert DecodeBody(c.window, b) == Some(c);
    assert Body(c) == b by {
      match c
      case Create(_, _, _, extra) =>
        assert b == b[..2] + b[2..];
      case Add(_, _, _, first, second) =>
      case Update(_, _, _, _) =>
      case AddHandler(_, _, _) =>
      case RemoveHandler(_, _, _) =>
      case Remove(_, _, _) =>
    }
    if |ins| > 0 && ins[0].tag == WindowId {
      assert ins == [ins[0]] + ins[1..];
    }
  }

  /** The only ambiguity of the wire format: an ADD carrying only its second
      optional model is written like one carrying only its first. */
  lemma AddSecondModelAlone(w: int, o: int, p: int, f: Field)
    ensures Encode(Add(w, o, p, None, Some(f))) == Encode(Add(w, o, p, Some(f), None))
    ensures Decode(Encode(Add(w, o, p, None, Some(f)))) == Some(Add(w, o, p, Some(f), None))
  {
    DecodeEncode(Add(w, o, p, Some(f), None));
  }
}

=== FILE: events.dfy ===
/** Inbound events: the flat map the remote runtime sends back, keyed by
    client-to-server tags, and the handler invocations it gives rise to.
    Handlers are opaque callbacks, so a dispatch is modelled as the
    ordered list of calls it makes. */
module Events {
  import opened Wire

  /** Client-to-server keys (ClientToServerModel) the modelled objects read. */
  datatype ClientKey = KeyHandlerSelection | KeyHandlerBeforeSelection | KeyNative

  /** A JSON value under an inbound key. */
  datatype InValue = Num(n: int) | Obj(payload: Json) | Text(s: string)

  type Event = map<ClientKey, InValue>

  /** A handler registered on the server side, known by identity only. */
  type HandlerId = nat

  /** One handler invocation, with the event object it receives: the
      source object's identifier and the decoded payload. */
  datatype Call =
    | NativeCall(handler: HandlerId, source: int, payload: Json)
    | SelectionCall(handler: HandlerId, source: int, item: int)
    | BeforeSelectionCall(handler: HandlerId, source: int, item: int)

  /** How many times a handler is invoked by a list of calls. */
  function Invocations(calls: seq<Call>, h: HandlerId): nat {
    multiset(seq(|calls|, i requires 0 <= i < |calls| => calls[i].handler))[h]
  }
}

=== FILE: horizontal_panel.dfy ===
/** A panel laying its widgets out in one row, with a horizontal and a
    vertical cell alignment that are sent to the remote side only when
    they change. */
module HorizontalPanels {
  import opened Outcomes
  import opened Wire
  import opened Encoder
  import opened Registry
  import opened PObjects

  datatype HorizontalPanel = HorizontalPanel(base: PObject, horizontalAlignment: HAlign, verticalAlignment: VAlign)

  /** getWidgetType(): every horizontal panel is created as HORIZONTAL_PANEL. */
  function GetWidgetType(p: HorizontalPanel): (w: WidgetType)
    ensures w == HorizontalPanelKind
  {
    HorizontalPanelKind
  }

  datatype NewPanel = NewPanel(panel: HorizontalPanel, session: Session)

  /** A new panel: unattached, of kind HORIZONTAL_PANEL, aligned left and top. */
  function NewHorizontalPanel(s: Session): (r: NewPanel)
    ensures Valid(s) ==> r.panel.base.id !in s.registered && Valid(r.session)
    ensures r.panel.base.widget == GetWidgetType(r.panel)
    ensures r.panel.base.windowId == EMPTY_WINDOW_ID && !r.panel.base.initialized
    ensures r.panel.horizontalAlignment == AlignLeft && r.panel.verticalAlignment == AlignTop
    ensures r.panel.base == PObject(r.panel.base.id, HorizontalPanelKind, EMPTY_WINDOW_ID, false, None, [], [])
  {
    var c := Construct(s, HorizontalPanelKind, EMPTY_WINDOW_ID, []);
    NewPanel(HorizontalPanel(c.obj, AlignLeft, AlignTop), c.session)
  }

  /** Attaching a new panel to a window creates it remotely as a
      HORIZONTAL_PANEL in that window. */
  lemma NewPanelCreatedAsHorizontalPanel(s: Session, w: int)
    requires w != EMPTY_WINDOW_ID
    ensures var p := NewHorizontalPanel(s).panel;
            var r := Attach(p.base, w);
            && r.Ok? && |r.value.emitted| == 1
            && Decode(r.value.emitted[0]) == Some(Create(w, p.base.id, HorizontalPanelKind, []))
  {
  }

  /** setHorizontalAlignment(a): nothing happens when a is the current
      alignment; otherwise a is stored and one UPDATE with
      HORIZONTAL_ALIGNMENT is emitted. The vertical axis is untouched. */
  function SetHorizontalAlignment(p: HorizontalPanel, a: HAlign): (r: Step<HorizontalPanel>)
    ensures r.state.horizontalAlignment == a
    ensures r.state.verticalAlignment == p.verticalAlignment && r.state.base == p.base
    ensures p.horizontalAlignment == a ==> r.emitted == []
    ensures p.horizontalAlignment != a ==>
              |r.emitted| == 1
              && Decode(r.emitted[0]) == Some(Update(p.base.windowId, p.base.id, Field(HorizontalAlignment, HAlignV(a)), None))
  {
    if p.horizontalAlignment == a then Step(p, [])
    else Step(p.(horizontalAlignment := a), [SaveUpdate(p.base, Field(HorizontalAlignment, HAlignV(a)), None)])
  }

  /** setVerticalAlignment(a): the same for the vertical axis. */
  function SetVerticalAlignment(p: HorizontalPanel, a: VAlign): (r: Step<HorizontalPanel>)
    ensures r.state.verticalAlignment == a
    ensures r.state.horizontalAlignment == p.horizontalAlignment && r.state.base == p.base
    ensures p.verticalAlignment == a ==> r.emitted == []
    ensures p.verticalAlignment != a ==>
              |r.emitted| == 1
              && Decode(r.emitted[0]) == Some(Update(p.base.windowId, p.base.id, Field(VerticalAlignment, VAlignV(a)), None))
  {
    if p.verticalAlignment == a then Step(p, [])
    else Step(p.(verticalAlignment := a), [SaveUpdate(p.base, Field(VerticalAlignment, VAlignV(a)), None)])
  }

  datatype AlignmentOp = SetHorizontal(h: HAlign) | SetVertical(v: VAlign)

  function ApplyAlignment(p: HorizontalPanel, op: AlignmentOp): Step<HorizontalPanel> {
    match op
    case SetHorizontal(a) => SetHorizontalAlignment(p, a)
    case SetVertical(a) => SetVerticalAlignment(p, a)
  }

  /** Perform the setter calls in order; the last call is applied last. */
  function RunAlignments(p: HorizontalPanel, ops: seq<AlignmentOp>): Step<HorizontalPanel>
    decreases |ops|
  {
    if |ops| == 0 then Step(p, [])
    else
      var before := RunAlignments(p, ops[..|ops| - 1]);
      var last := ApplyAlignment(before.state, ops[|ops| - 1]);
      Step(last.state, before.emitted + last.emitted)
  }

  /** The position of the last horizontal setter call, or -1 when there
      is none. */
  function LastHorizontalIndex(ops: seq<AlignmentOp>): (k: int)
    ensures -1 <= k < |ops|
    ensures k >= 0 ==> ops[k].SetHorizontal?
    ensures forall j :: k < j < |ops| ==> !ops[j].SetHorizontal?
    decreases |ops|
  {
    if |ops| == 0 then -1
    else if ops[|ops| - 1].SetHorizontal? then |ops| - 1
    else
      var init := ops[..|ops| - 1];
      assert forall j :: 0 <= j < |init| ==> init[j] == ops[j];
      LastHorizontalIndex(init)
  }

  /** The position of the last vertical setter call, or -1 when there is
      none. */
  function LastVerticalIndex(ops: seq<AlignmentOp>): (k: int)
    ensures -1 <= k < |ops|
    ensures k >= 0 ==> ops[k].SetVertical?
    ensures forall j :: k < j < |ops| ==> !ops[j].SetVertical?
    decreases |ops|
  {
    if |ops| == 0 then -1
    else if ops[|ops| - 1].SetVertical? then |ops| - 1
    else
      var init := ops[..|ops| - 1];
      assert forall j :: 0 <= j < |init| ==> init[j] == ops[j];
      LastVerticalIndex(init)
  }

  /** The alignment the last horizontal setter call stored, or the initial
      one when there is no such call. */
  function LastHorizontal(ops: seq<AlignmentOp>, initial: HAlign): HAlign {
    var k := LastHorizontalIndex(ops);
    if k < 0 then initial else ops[k].h
  }

  /** The alignment the last vertical setter call stored, or the initial
      one when there is no such call. */
  function LastVertical(ops: seq<AlignmentOp>, initial: VAlign): VAlign {
    var k := LastVerticalIndex(ops);
    if k < 0 then initial else ops[k].v
  }

  /** Each getter returns the value its own axis's last setter stored,
      whatever was done to the other axis, and the panel's identity and
      window are never touched. */
  lemma {:induction false} GettersReturnLastStored(p: HorizontalPanel, ops: seq<AlignmentOp>)
    ensures RunAlignments(p, ops).state.horizontalAlignment == LastHorizontal(ops, p.horizontalAlignment)
    ensures RunAlignments(p, ops).state.verticalAlignment == LastVertical(ops, p.verticalAlignment)
    ensures RunAlignments(p, ops).state.base == p.base
    decreases |ops|
  {
    if |ops| > 0 {
      GettersReturnLastStored(p, ops[..|ops| - 1]);
    }
  }

  /** Setting an axis to the value it already has, any number of times,
      sends nothing to the remote side. */
  lemma {:induction false} UnchangedValuesEmitNothing(p: HorizontalPanel, ops: seq<AlignmentOp>)
    requires forall i :: 0 <= i < |ops| ==>
               (ops[i].SetHorizontal? ==> ops[i].h == p.horizontalAlignment)
               && (ops[i].SetVertical? ==> ops[i].v == p.verticalAlignment)
    ensures RunAlignments(p, ops) == Step(p, [])
    decreases |ops|
  {
    if |ops| > 0 {
      UnchangedValuesEmitNothing(p, ops[..|ops| - 1]);
    }
  }
}

=== FILE: lifecycle.dfy ===
/** Whole-lifetime properties of one object: any sequence of calls on it,
    where a call that throws leaves the object as it was and emits nothing
    (every failing path of the object checks before it mutates). */
module Lifecycle {
  import opened Outcomes
  import opened Wire
  import opened Encoder
  import opened Events
  import opened PObjects

  /** The save helpers other than saveUpdate that a concrete kind calls. */
  datatype SaveCall =
    | SaveAddCall(objectId: int, parentId: int, first: Option<Field>, secondModel: Option<Field>)
    | SaveRemoveCall(removedId: int, removedParentId: int)
    | SaveAddHandlerCall(handlerModel: HandlerModel)
    | SaveRemoveHandlerCall(model: Option<Field>)

  /** The one instruction a save helper writes: tagged with the object's
      window, and never a CREATE or an UPDATE. */
  function SaveInstruction(o: PObject, call: SaveCall): (ins: Instruction)
    ensures WindowTagged(ins, o.windowId)
    ensures Decode(ins).Some? && !Decode(ins).value.Create? && !Decode(ins).value.Update?
  {
    match call
    case SaveAddCall(objectId, parentId, first, second) => SaveAdd(o, objectId, parentId, first, second)
    case SaveRemoveCall(objectId, parentId) => SaveRemove(o, objectId, parentId)
    case SaveAddHandlerCall(handler) => SaveAddHandler(o, handler)
    case SaveRemoveHandlerCall(model) => SaveRemoveHandler(o, model)
  }

  /** The calls the base object accepts. UpdateOp stands for any saveUpdate
      a concrete kind performs, and SaveOp for its other save helpers. */
  datatype ObjectOp =
    | AttachOp(window: int)
    | BindOp(name: string)
    | SendOp(data: Json)
    | AddNativeHandlerOp(handler: HandlerId)
    | UpdateOp(field: Field, second: Option<Field>)
    | SaveOp(call: SaveCall)

  function Apply(o: PObject, op: ObjectOp): Step<PObject> {
    match op
    case AttachOp(w) =>
      (match Attach(o, w)
       case Ok(a) => Step(a.obj, a.emitted)
       case Err(_) => Step(o, []))
    case BindOp(name) =>
      (match BindTerminalFunction(o, name)
       case Ok(s) => s
       case Err(_) => Step(o, []))
    case SendOp(data) =>
      (match SendToNative(o, data)
       case Ok(s) => s
       case Err(_) => Step(o, []))
    case AddNativeHandlerOp(h) => Step(AddNativeHandler(o, h), [])
    case UpdateOp(field, second) => Step(o, [SaveUpdate(o, field, second)])
    case SaveOp(call) => Step(o, [SaveInstruction(o, call)])
  }

  /** Perform the calls in order, concatenating what each emits. */
  function Run(o: PObject, ops: seq<ObjectOp>): Step<PObject>
    decreases |ops|
  {
    if |ops| == 0 then Step(o, [])
    else
      var first := Apply(o, ops[0]);
      var rest := Run(first.state, ops[1..]);
      Step(rest.state, first.emitted + rest.emitted)
  }

  predicate IsCreateOf(id: int, ins: Instruction) {
    Decode(ins).Some? && Decode(ins).value.Create? && Decode(ins).value.id == id
  }

  predicate IsBindOf(id: int, ins: Instruction) {
    && Decode(ins).Some? && Decode(ins).value.Update?
    && Decode(ins).value.id == id && Decode(ins).value.field.tag == Bind
  }

  function CountCreates(id: int, log: seq<Instruction>): nat
    decreases |log|
  {
    if |log| == 0 then 0
    else (if IsCreateOf(id, log[0]) then 1 else 0) + CountCreates(id, log[1..])
  }

  function CountBinds(id: int, log: seq<Instruction>): nat
    decreases |log|
  {
    if |log| == 0 then 0
    else (if IsBindOf(id, log[0]) then 1 else 0) + CountBinds(id, log[1..])
  }

  lemma {:induction false} CountCreatesAppend(id: int, a: seq<Instruction>, b: seq<Instruction>)
    ensures CountCreates(id, a + b) == CountCreates(id, a) + CountCreates(id, b)
    decreases |a|
  {
    if |a| == 0 {
      assert a + b == b;
    } else {
      assert (a + b)[1..] == a[1..] + b;
      CountCreatesAppend(id, a[1..], b);
    }
  }

  lemma {:induction false} CountBindsAppend(id: int, a: seq<Instruction>, b: seq<Instruction>)
    ensures CountBinds(id, a + b) == CountBinds(id, a) + CountBinds(id, b)
    decreases |a|
  {
    if |a| == 0 {
      assert a + b == b;
    } else {
      assert (a + b)[1..] == a[1..] + b;
      CountBindsAppend(id, a[1..], b);
    }
  }

  /** The object-layer calls that do not themselves write BIND. */
  predicate NoBindUpdates(ops: seq<ObjectOp>) {
    forall i :: 0 <= i < |ops| ==> ops[i].UpdateOp? ==>
      ops[i].field.tag != Bind && (ops[i].second.Some? ==> ops[i].second.value.tag != Bind)
  }

  /** One call: the identifier and kind never change, initialization and
      binding are never undone, and an assigned window is never changed. */
  lemma ApplyKeeps(o: PObject, op: ObjectOp)
    ensures var s := Apply(o, op).state;
            && s.id == o.id && s.widget == o.widget
            && (o.initialized ==> s.initialized)
            && (o.nativeBinding.Some? ==> s.nativeBinding == o.nativeBinding)
            && (o.windowId != EMPTY_WINDOW_ID ==> s.windowId == o.windowId)
  {
  }

  /** One call writes CREATE exactly when it initializes the object. */
  lemma ApplyCreates(o: PObject, op: ObjectOp)
    ensures CountCreates(o.id, Apply(o, op).emitted)
            == (if !o.initialized && Apply(o, op).state.initialized then 1 else 0)
  {
    var s := Apply(o, op);
    if |s.emitted| == 1 {
      assert s.emitted[1..] == [];
    }
  }

  /** One call other than a BIND-tagged update writes BIND exactly when it
      binds the object. */
  lemma ApplyBinds(o: PObject, op: ObjectOp)
    requires op.UpdateOp? ==> op.field.tag != Bind && (op.second.Some? ==> op.second.value.tag != Bind)
    ensures CountBinds(o.id, Apply(o, op).emitted)
            == (if o.nativeBinding.None? && Apply(o, op).state.nativeBinding.Some? then 1 else 0)
  {
    var s := Apply(o, op);
    if |s.emitted| == 1 {
      assert s.emitted[1..] == [];
    }
  }

  /** Exactly-once creation: over any sequence of calls, an object that
      starts uninitialized emits one CREATE if it ends up initialized and
      none otherwise; an initialized object never emits CREATE again. */
  lemma {:induction false} CreatedAtMostOnce(o: PObject, ops: seq<ObjectOp>)
    ensures var r := Run(o, ops);
            && (o.initialized ==> r.state.initialized)
            && CountCreates(o.id, r.emitted) == (if !o.initialized && r.state.initialized then 1 else 0)
    decreases |ops|
  {
    if |ops| > 0 {
      var first := Apply(o, ops[0]);
      ApplyKeeps(o, ops[0]);
      ApplyCreates(o, ops[0]);
      CreatedAtMostOnce(first.state, ops[1..]);
      var rest := Run(first.state, ops[1..]);
      CountCreatesAppend(o.id, first.emitted, rest.emitted);
    }
  }

  /** One window for a lifetime: once an object has a window, no sequence of
      calls moves it to another one. */
  lemma {:induction false} WindowNeverChanges(o: PObject, ops: seq<ObjectOp>)
    requires o.windowId != EMPTY_WINDOW_ID
    ensures Run(o, ops).state.windowId == o.windowId
    ensures forall i :: 0 <= i < |Run(o, ops).emitted| ==> WindowTagged(Run(o, ops).emitted[i], o.windowId)
    decreases |ops|
  {
    if |ops| > 0 {
      var first := Apply(o, ops[0]);
      ApplyKeeps(o, ops[0]);
      assert first.state.windowId == o.windowId;
      WindowNeverChanges(first.state, ops[1..]);
      var rest := Run(first.state, ops[1..]);
      var log := first.emitted + rest.emitted;
      assert Run(o, ops) == Step(rest.state, log);
      forall i | 0 <= i < |log|
        ensures WindowTagged(log[i], o.windowId)
      {
        if i < |first.emitted| {
          ApplyTagsWindow(o, ops[0], i);
          assert log[i] == first.emitted[i];
        } else {
          var k := i - |first.emitted|;
          assert WindowTagged(rest.emitted[k], o.windowId);
          assert log[i] == rest.emitted[k];
        }
      }
    }
  }

  /** Every instruction a call emits carries the object's window as it is
      after the call. */
  lemma ApplyTagsWindow(o: PObject, op: ObjectOp, i: nat)
    requires i < |Apply(o, op).emitted|
    ensures WindowTagged(Apply(o, op).emitted[i], Apply(o, op).state.windowId)
  {
  }

  /** One-time binding: over any sequence of calls, BIND is written at most
      once, and exactly when the object goes from unbound to bound. */
  lemma {:induction false} BoundAtMostOnce(o: PObject, ops: seq<ObjectOp>)
    requires NoBindUpdates(ops)
    ensures var r := Run(o, ops);
            && (o.nativeBinding.Some? ==> r.state.nativeBinding == o.nativeBinding)
            && CountBinds(o.id, r.emitted) == (if o.nativeBinding.None? && r.state.nativeBinding.Some? then 1 else 0)
    decreases |ops|
  {
    if |ops| > 0 {
      var first := Apply(o, ops[0]);
      ApplyKeeps(o, ops[0]);
      ApplyBinds(o, ops[0]);
      BoundAtMostOnce(first.state, ops[1..]);
      var rest := Run(first.state, ops[1..]);
      CountBindsAppend(o.id, first.emitted, rest.emitted);
    }
  }

  /** One Java object is many records over its life: whatever calls are
      made on it, equals() still holds between its first and its last
      state, in both directions. */
  lemma {:induction false} EqualAcrossCalls(o: PObject, ops: seq<ObjectOp>)
    ensures Equals(o, Some(Run(o, ops).state))
    ensures Equals(Run(o, ops).state, Some(o))
    decreases |ops|
  {
    if |ops| > 0 {
      var first := Apply(o, ops[0]);
      ApplyKeeps(o, ops[0]);
      EqualAcrossCalls(first.state, ops[1..]);
    }
  }
}

=== FILE: outcomes.dfy ===
/** Failure-carrying values used by every operation of the model.
    The Java code signals illegal states by throwing; here an operation
    returns either its result or the kind of exception it would throw. */
module Outcomes {

  datatype Option<+T> = None | Some(value: T)

  /** The exceptions the modelled code throws. */
  datatype Error =
    | IllegalAccess        // java.lang.IllegalAccessError: wrong window, double bind, unbound native call
    | IndexOutOfBounds     // java.lang.IndexOutOfBoundsException
    | UnsupportedOperation // java.lang.UnsupportedOperationException
    | IllegalArgument      // a widget inserted into itself
    | ClassCast            // an inbound value of the wrong JSON kind

  datatype Result<+T> = Ok(value: T) | Err(error: Error)
}

=== FILE: pobject.dfy ===
/** The base of every UI node: identity, window affinity, one-time
    creation, one-time native binding, native-event routing, and the
    save* helpers that write each instruction shape with the object's
    window tag in front. */
module PObjects {
  import opened Outcomes
  import opened Wire
  import opened Encoder
  import opened Events
  import opened Registry

  datatype PObject = PObject(
    id: int,
    widget: WidgetType,            // what getWidgetType() answers for the concrete kind
    windowId: int,
    initialized: bool,
    nativeBinding: Option<string>,
    nativeHandlers: seq<HandlerId>,
    enrichment: seq<Field>)        // the fields the kind's enrichOnInit hook writes into CREATE

  /** The new state of an operation and the instructions it emitted, in order. */
  datatype Step<S> = Step(state: S, emitted: seq<Instruction>)

  datatype Constructed = Constructed(obj: PObject, session: Session)

  /** The constructor: a fresh identifier from the session, registration,
      and the given window (EMPTY_WINDOW_ID for the no-argument form).
      Nothing is emitted until the object is initialized. */
  function Construct(s: Session, widget: WidgetType, windowId: int, enrichment: seq<Field>): (r: Constructed)
    ensures Valid(s) ==> r.obj.id !in s.registered && Valid(r.session)
    ensures r.obj.id in r.session.registered
    ensures r.session.registered == s.registered + {r.obj.id}
    ensures r.obj.windowId == windowId && r.obj.widget == widget && r.obj.enrichment == enrichment
    ensures !r.obj.initialized && r.obj.nativeBinding.None? && r.obj.nativeHandlers == []
  {
    var a := Allocate(s);
    Constructed(PObject(a.id, widget, windowId, false, None, [], enrichment), a.session)
  }

  // ---------------------------------------------------------------------
  // Instruction helpers. Each writes one instruction in the object's window.

  function SaveAddHandler(o: PObject, handler: HandlerModel): (ins: Instruction)
    ensures Decode(ins) == Some(AddHandler(o.windowId, handler, o.id))
    ensures WindowTagged(ins, o.windowId)
  {
    var c := AddHandler(o.windowId, handler, o.id);
    DecodeEncode(c);
    Encode(c)
  }

  /** REMOVE_HANDLER, optionally followed by one model field. */
  function SaveRemoveHandler(o: PObject, model: Option<Field>): (ins: Instruction)
    ensures Decode(ins) == Some(RemoveHandler(o.windowId, o.id, model))
    ensures WindowTagged(ins, o.windowId)
  {
    var c := RemoveHandler(o.windowId, o.id, model);
    DecodeEncode(c);
    Encode(c)
  }

  function SaveRemove(o: PObject, objectId: int, parentId: int): (ins: Instruction)
    ensures Decode(ins) == Some(Remove(o.windowId, objectId, parentId))
    ensures WindowTagged(ins, o.windowId)
  {
    var c := Remove(o.windowId, objectId, parentId);
    DecodeEncode(c);
    Encode(c)
  }

  /** ADD of objectId under parentId with up to two model fields; an absent
      first model with a present second one is read as a first model. */
  function SaveAdd(o: PObject, objectId: int, parentId: int, first: Option<Field>, second: Option<Field>): (ins: Instruction)
    ensures first.Some? || second.None? ==> Decode(ins) == Some(Add(o.windowId, objectId, parentId, first, second))
    ensures first.None? && second.Some? ==> Decode(ins) == Some(Add(o.windowId, objectId, parentId, second, None))
    ensures WindowTagged(ins, o.windowId)
  {
    var c := Add(o.windowId, objectId, parentId, first, second);
    if first.None? && second.Some? then
      AddSecondModelAlone(o.windowId, objectId, parentId, second.value);
      Encode(c)
    else
      DecodeEncode(c);
      Encode(c)
  }

  /** UPDATE of this object: one mandatory field and an optional second one,
      both in the same instruction. */
  function SaveUpdate(o: PObject, field: Field, second: Option<Field>): (ins: Instruction)
    ensures Decode(ins) == Some(Update(o.windowId, o.id, field, second))
    ensures WindowTagged(ins, o.windowId)
  {
    var c := Update(o.windowId, o.id, field, second);
    DecodeEncode(c);
    Encode(c)
  }

  /** The CREATE instruction of this object in its current window. */
  function CreateInstruction(o: PObject): (ins: Instruction)
    ensures Decode(ins) == Some(Create(o.windowId, o.id, o.widget, o.enrichment))
    ensures WindowTagged(ins, o.windowId)
  {
    var c := Create(o.windowId, o.id, o.widget, o.enrichment);
    DecodeEncode(c);
    Encode(c)
  }

  // ---------------------------------------------------------------------
  // Lifecycle

  /** init(): the first call emits CREATE and marks the object initialized;
      later calls emit nothing. */
  function Init(o: PObject): (r: Step<PObject>)
    ensures r.state.initialized
    ensures r.state.(initialized := o.initialized) == o
    ensures o.initialized ==> r.emitted == []
    ensures !o.initialized ==> |r.emitted| == 1
    ensures !o.initialized ==> Decode(r.emitted[0]) == Some(Create(o.windowId, o.id, o.widget, o.enrichment))
  {
    if o.initialized then Step(o, [])
    else Step(o.(initialized := true), [CreateInstruction(o)])
  }

  /** attach(w) succeeds when the object is unattached and w is a real
      window, or when w is already the object's window. */
  predicate CanAttach(o: PObject, w: int) {
    (o.windowId == EMPTY_WINDOW_ID && w != EMPTY_WINDOW_ID) || o.windowId == w
  }

  /** The outcome of a successful attach: the object, what it emitted, and
      the boolean attach() returns. */
  datatype Attached = Attached(obj: PObject, emitted: seq<Instruction>, attached: bool)

  function AttachTo(o: PObject, w: int): (r: Attached)
    requires CanAttach(o, w)
    ensures r.obj.windowId == w
    ensures r.attached <==> o.windowId == EMPTY_WINDOW_ID && w != EMPTY_WINDOW_ID
    ensures r.attached ==> Step(r.obj, r.emitted) == Init(o.(windowId := w))
    ensures !r.attached ==> r.obj == o && r.emitted == []
  {
    if o.windowId == EMPTY_WINDOW_ID && w != EMPTY_WINDOW_ID then
      var step := Init(o.(windowId := w));
      Attached(step.state, step.emitted, true)
    else
      Attached(o, [], false)
  }

  /** attach(w): moves an unattached object into w and initializes it;
      re-attaching to the same window is a silent no-op; attaching an
      attached object to another window is an illegal access. */
  function Attach(o: PObject, w: int): (r: Result<Attached>)
    ensures r.Err? <==> o.windowId != w && !(o.windowId == EMPTY_WINDOW_ID && w != EMPTY_WINDOW_ID)
    ensures r.Err? ==> r.error == IllegalAccess
    ensures r.Ok? ==> r.value.obj.windowId == w
    ensures r.Ok? ==> (r.value.attached <==> o.windowId == EMPTY_WINDOW_ID && w != EMPTY_WINDOW_ID)
    ensures r.Ok? && r.value.attached ==>
              && r.value.obj == o.(windowId := w, initialized := true)
              && (o.initialized ==> r.value.emitted == [])
              && (!o.initialized ==>
                    |r.value.emitted| == 1 && Decode(r.value.emitted[0]) == Some(Create(w, o.id, o.widget, o.enrichment)))
    ensures r.Ok? && !r.value.attached ==> r.value.obj == o && r.value.emitted == []
  {
    if CanAttach(o, w) then Ok(AttachTo(o, w)) else Err(IllegalAccess)
  }

  // ---------------------------------------------------------------------
  // Native binding

  /** bindTerminalFunction(name): allowed once; it records the name and
      emits an UPDATE carrying BIND. */
  function BindTerminalFunction(o: PObject, name: string): (r: Result<Step<PObject>>)
    ensures r.Err? <==> o.nativeBinding.Some?
    ensures r.Err? ==> r.error == IllegalAccess
    ensures r.Ok? ==> r.value.state == o.(nativeBinding := Some(name))
    ensures r.Ok? ==> |r.value.emitted| == 1
                      && Decode(r.value.emitted[0]) == Some(Update(o.windowId, o.id, Field(Bind, StrV(name)), None))
  {
    if o.nativeBinding.Some? then Err(IllegalAccess)
    else Ok(Step(o.(nativeBinding := Some(name)), [SaveUpdate(o, Field(Bind, StrV(name)), None)]))
  }

  /** sendToNative(data): only once a native function is bound; it emits an
      UPDATE carrying the payload under NATIVE and changes nothing else. */
  function SendToNative(o: PObject, data: Json): (r: Result<Step<PObject>>)
    ensures r.Err? <==> o.nativeBinding.None?
    ensures r.Err? ==> r.error == IllegalAccess
    ensures r.Ok? ==> r.value.state == o
    ensures r.Ok? ==> |r.value.emitted| == 1
                      && Decode(r.value.emitted[0]) == Some(Update(o.windowId, o.id, Field(Native, JsonV(data)), None))
  {
    if o.nativeBinding.None? then Err(IllegalAccess)
    else Ok(Step(o, [SaveUpdate(o, Field(Native, JsonV(data)), None)]))
  }

  /** addNativeHandler(h): registers h after the handlers already present;
      nothing is sent to the remote side. */
  function AddNativeHandler(o: PObject, h: HandlerId): (r: PObject)
    ensures |r.nativeHandlers| == |o.nativeHandlers| + 1
    ensures r.nativeHandlers[..|o.nativeHandlers|] == o.nativeHandlers
    ensures r.nativeHandlers[|o.nativeHandlers|] == h
    ensures r.(nativeHandlers := o.nativeHandlers) == o
  {
    o.(nativeHandlers := o.nativeHandlers + [h])
  }

  /** One native event per registered handler, in registration order. */
  function NativeCalls(handlers: seq<HandlerId>, source: int, payload: Json): (calls: seq<Call>)
    ensures |calls| == |handlers|
    ensures forall i :: 0 <= i < |handlers| ==> calls[i] == NativeCall(handlers[i], source, payload)
  {
    seq(|handlers|, i requires 0 <= i < |handlers| => NativeCall(handlers[i], source, payload))
  }

  /** onClientData(event): when native handlers exist and the event holds
      the NATIVE key, every native handler receives the payload, in order;
      otherwise nothing happens. A NATIVE value that is not a JSON object
      fails the cast before any handler runs. */
  function OnClientData(o: PObject, event: Event): (r: Result<seq<Call>>)
    ensures |o.nativeHandlers| == 0 || KeyNative !in event ==> r == Ok([])
    ensures |o.nativeHandlers| > 0 && KeyNative in event ==>
              (r.Ok? <==> event[KeyNative].Obj?) && (r.Err? ==> r.error == ClassCast)
    ensures r.Ok? && KeyNative in event && event[KeyNative].Obj? ==>
              |r.value| == |o.nativeHandlers|
              && forall i :: 0 <= i < |r.value| ==>
                   r.value[i] == NativeCall(o.nativeHandlers[i], o.id, event[KeyNative].payload)
  {
    if |o.nativeHandlers| > 0 && KeyNative in event then
      match event[KeyNative]
      case Obj(payload) => Ok(NativeCalls(o.nativeHandlers, o.id, payload))
      case _ => Err(ClassCast)
    else Ok([])
  }

  /** A handler registered once receives an inbound native payload
      exactly once. */
  lemma NativeHandlerSeesPayloadOnce(o: PObject, h: HandlerId, payload: Json)
    requires h !in o.nativeHandlers
    ensures var r := OnClientData(AddNativeHandler(o, h), map[KeyNative := Obj(payload)]);
            && r.Ok?
            && Invocations(r.value, h) == 1
            && NativeCall(h, o.id, payload) in r.value
  {
    var o' := AddNativeHandler(o, h);
    var calls := OnClientData(o', map[KeyNative := Obj(payload)]).value;
    var handlers := seq(|calls|, i requires 0 <= i < |calls| => calls[i].handler);
    assert handlers == o.nativeHandlers + [h];
    assert calls[|calls| - 1] == NativeCall(h, o.id, payload);
  }

  // ---------------------------------------------------------------------
  // Identity

  /** equals(): the same concrete kind and the same identifier. A missing
      other object is never equal. */
  function Equals(a: PObject, b: Option<PObject>): (r: bool)
    ensures b == Some(a) ==> r
    ensures b.None? ==> !r
    ensures r ==> b.value.id == a.id && b.value.widget == a.widget
    ensures b.Some? && b.value.id != a.id ==> !r
    ensures b.Some? && b.value.id == a.id && b.value.widget == a.widget ==> r
  {
    b.Some? && a.widget == b.value.widget && a.id == b.value.id
  }

  lemma EqualsIsEquivalence(a: PObject, b: PObject, c: PObject)
    ensures Equals(a, Some(a))
    ensures Equals(a, Some(b)) <==> Equals(b, Some(a))
    ensures Equals(a, Some(b)) && Equals(b, Some(c)) ==> Equals(a, Some(c))
    ensures !Equals(a, None)
  {
  }

  predicate InInt32(x: int) {
    -0x8000_0000 <= x < 0x8000_0000
  }

  /** The two's-complement bits of a Java int. */
  function IntBits(x: int): bv32
    requires InInt32(x)
  {
    if x >= 0 then x as bv32 else (x + 0x1_0000_0000) as bv32
  }

  /** The Java int whose bits these are. */
  function BitsInt(b: bv32): (x: int)
    ensures InInt32(x)
  {
    if b as int < 0x8000_0000 then b as int else b as int - 0x1_0000_0000
  }

  /** Java's >>> on an int: only the low five bits of the distance count. */
  function UnsignedShiftRight(x: bv32, distance: int): bv32 {
    x >> (distance % 32)
  }

  /** hashCode() as written: 31 * 1 + (ID ^ ID >>> 32), in int arithmetic. */
  function HashCodeAsWritten(o: PObject): (h: int)
    requires InInt32(o.id)
    ensures h == 31
  {
    var prime: bv32 := 31;
    var result: bv32 := 1;
    var id := IntBits(o.id);
    BitsInt(prime * result + (id ^ UnsignedShiftRight(id, 32)))
  }

  /** A shift by 32 on an int shifts by nothing, so the identifier cancels
      itself out and every object hashes to 31. */
  lemma HashCodeAsWrittenIgnoresId(a: PObject, b: PObject)
    requires InInt32(a.id) && InInt32(b.id)
    ensures HashCodeAsWritten(a) == HashCodeAsWritten(b) == 31
  {
  }

  /** Two objects that equals() tells apart, with the same hash. */
  lemma HashCodeAsWrittenCollides()
    ensures var a := PObject(1, HorizontalPanelKind, MAIN_WINDOW_ID, false, None, [], []);
            var b := PObject(2, HorizontalPanelKind, MAIN_WINDOW_ID, false, None, [], []);
            !Equals(a, Some(b)) && HashCodeAsWritten(a) == HashCodeAsWritten(b)
  {
    var a := PObject(1, HorizontalPanelKind, MAIN_WINDOW_ID, false, None, [], []);
    var b := PObject(2, HorizontalPanelKind, MAIN_WINDOW_ID, false, None, [], []);
    HashCodeAsWrittenIgnoresId(a, b);
  }

  /** Wrap-around of a Java int addition. */
  function Wrap32(x: int): (r: int)
    ensures InInt32(r)
    ensures (r - x) % 0x1_0000_0000 == 0
  {
    (x + 0x8000_0000) % 0x1_0000_0000 - 0x8000_0000
  }

  /** hashCode() as intended: 31 * 1 + ID, which depends on the identifier. */
  function HashCode(o: PObject): (h: int)
    ensures InInt32(h)
    ensures InInt32(o.id + 31) ==> h == o.id + 31
    ensures (h - (o.id + 31)) % 0x1_0000_0000 == 0
  {
    Wrap32(31 + o.id)
  }

  /** The intended hash is consistent with equals() and separates any two
      objects whose int identifiers differ. */
  lemma HashCodeSeparates(a: PObject, b: PObject)
    requires InInt32(a.id) && InInt32(b.id)
    ensures Equals(a, Some(b)) ==> HashCode(a) == HashCode(b)
    ensures HashCode(a) == HashCode(b) ==> a.id == b.id
  {
  }
}

=== FILE: registry.dfy ===
/** The per-session identity registry: a counter that hands out object
    identifiers and the set of identifiers registered so far. */
module Registry {

  datatype Session = Session(nextId: int, registered: set<int>)

  /** Every registered identifier was handed out before the counter's
      current value, so the counter never names a registered object. */
  predicate Valid(s: Session) {
    forall x :: x in s.registered ==> x < s.nextId
  }

  datatype Allocation = Allocation(id: int, session: Session)

  /** Allocate an identifier and register it (the object constructor's
      nextID() followed by registerObject). */
  function Allocate(s: Session): (r: Allocation)
    ensures Valid(s) ==> r.id !in s.registered
    ensures forall x :: x in s.registered ==> x < r.id || !Valid(s)
    ensures r.session.registered == s.registered + {r.id}
    ensures s.nextId <= r.id < r.session.nextId
    ensures Valid(s) ==> Valid(r.session)
  {
    Allocation(s.nextId, Session(s.nextId + 1, s.registered + {s.nextId}))
  }

  predicate StrictlyIncreasing(ids: seq<int>) {
    forall i, j :: 0 <= i < j < |ids| ==> ids[i] < ids[j]
  }

  datatype Allocations = Allocations(ids: seq<int>, session: Session)

  /** Allocate n identifiers in a row. */
  function AllocateMany(s: Session, n: nat): (r: Allocations)
    ensures |r.ids| == n
    ensures StrictlyIncreasing(r.ids)
    ensures forall i :: 0 <= i < n ==> s.nextId <= r.ids[i] < r.session.nextId
    ensures r.session.registered == s.registered + (set x | x in r.ids)
    ensures s.nextId <= r.session.nextId
    ensures Valid(s) ==> Valid(r.session)
    decreases n
  {
    if n == 0 then Allocations([], s)
    else
      var first := Allocate(s);
      var rest := AllocateMany(first.session, n - 1);
      var ids := [first.id] + rest.ids;
      Allocations(ids, rest.session)
  }

  /** Identifiers handed out within one session never repeat and never
      coincide with an identifier registered earlier, even if the object it
      named is no longer used. */
  lemma {:induction false} AllocatedIdsAreFresh(s: Session, n: nat)
    requires Valid(s)
    ensures var r := AllocateMany(s, n);
            && (forall i, j :: 0 <= i < n && 0 <= j < n && i != j ==> r.ids[i] != r.ids[j])
            && (forall i :: 0 <= i < n ==> r.ids[i] !in s.registered)
  {
    var r := AllocateMany(s, n);
    forall i, j | 0 <= i < n && 0 <= j < n && i != j
      ensures r.ids[i] != r.ids[j]
    {
      if i < j { assert r.ids[i] < r.ids[j]; } else { assert r.ids[j] < r.ids[i]; }
    }
  }
}

=== FILE: tab_layout_panel.dfy ===
/** The tabbed panel: tab insertion (with a text tab or a widget tab),
    tab selection, selection-handler bookkeeping, inbound event routing and
    the animation settings, all written through the base object's
    instruction helpers. */
module TabLayoutPanels {
  import opened Outcomes
  import opened Wire
  import opened Encoder
  import opened Events
  import opened Registry
  import opened PObjects

  datatype TabLayoutPanel = TabLayoutPanel(
    base: PObject,
    children: seq<int>,                      // identifiers of the tab contents, in tab order
    beforeSelectionHandlers: seq<HandlerId>,
    selectionHandlers: seq<HandlerId>,
    selectedItemIndex: Option<int>,
    animationDuration: Option<Duration>)

  function WidgetCount(p: TabLayoutPanel): nat {
    |p.children|
  }

  datatype NewPanel = NewPanel(panel: TabLayoutPanel, session: Session)

  /** A new panel: a fresh unattached TAB_LAYOUT_PANEL with no tabs, no
      handlers, no selection and no animation duration. */
  function NewTabLayoutPanel(s: Session): (r: NewPanel)
    ensures Valid(s) ==> r.panel.base.id !in s.registered && Valid(r.session)
    ensures r.panel.base.widget == TabLayoutPanelKind && r.panel.base.windowId == EMPTY_WINDOW_ID
    ensures !r.panel.base.initialized
    ensures r.panel.children == [] && r.panel.selectionHandlers == [] && r.panel.beforeSelectionHandlers == []
    ensures r.panel.selectedItemIndex.None? && r.panel.animationDuration.None?
    ensures r.panel.base == PObject(r.panel.base.id, TabLayoutPanelKind, EMPTY_WINDOW_ID, false, None, [], [])
  {
    var c := Construct(s, TabLayoutPanelKind, EMPTY_WINDOW_ID, []);
    NewPanel(TabLayoutPanel(c.obj, [], [], [], None, None), c.session)
  }

  /** init0(): the panel subscribes to remote selection events. */
  function Init0(p: TabLayoutPanel): (ins: Instruction)
    ensures Decode(ins) == Some(AddHandler(p.base.windowId, HandlerSelection, p.base.id))
  {
    SaveAddHandler(p.base, HandlerSelection)
  }

  /** Attaching the panel: the base object's attach, and when that creates
      the panel on the remote side, the init0 subscription right after CREATE. */
  function AttachPanel(p: TabLayoutPanel, w: int): (r: Result<Step<TabLayoutPanel>>)
    ensures r.Err? <==> !CanAttach(p.base, w)
    ensures r.Err? ==> r.error == IllegalAccess
    ensures r.Ok? ==> r.value.state.base.windowId == w
    ensures r.Ok? ==> r.value.state.(base := p.base) == p
    ensures r.Ok? && !p.base.initialized && p.base.windowId == EMPTY_WINDOW_ID && w != EMPTY_WINDOW_ID ==>
              && |r.value.emitted| == 2
              && Decode(r.value.emitted[0]) == Some(Create(w, p.base.id, p.base.widget, p.base.enrichment))
              && Decode(r.value.emitted[1]) == Some(AddHandler(w, HandlerSelection, p.base.id))
    ensures r.Ok? && (p.base.initialized || p.base.windowId != EMPTY_WINDOW_ID || w == EMPTY_WINDOW_ID) ==>
              r.value.emitted == []
  {
    match PObjects.Attach(p.base, w)
    case Err(e) => Err(e)
    case Ok(a) =>
      var q := p.(base := a.obj);
      if |a.emitted| > 0 then Ok(Step(q, a.emitted + [Init0(q)])) else Ok(Step(q, []))
  }

  /** The window test both insert forms start with: the child is unattached
      or already in the panel's window. */
  predicate ChildWindowOk(p: TabLayoutPanel, child: PObject) {
    child.windowId == EMPTY_WINDOW_ID || child.windowId == p.base.windowId
  }

  function InsertAt(s: seq<int>, i: int, x: int): (r: seq<int>)
    requires 0 <= i <= |s|
    ensures |r| == |s| + 1 && r[i] == x
    ensures r[..i] == s[..i] && r[i + 1..] == s[i..]
  {
    s[..i] + [x] + s[i..]
  }

  /** Inserting at the end appends. */
  lemma InsertAtEndAppends(s: seq<int>, x: int)
    ensures InsertAt(s, |s|, x) == s + [x]
  {
    assert s[..|s|] == s;
  }

  /** What a successful text-tab insertion writes: the child's attach to
      the panel's window (its CREATE, if that attach creates it), then one
      ADD of the child under the panel with TAB_TEXT then BEFORE_INDEX. */
  predicate AttachesThenAdds(p: TabLayoutPanel, child: PObject, tabText: string, beforeIndex: int,
                             newChild: PObject, emitted: seq<Instruction>)
  {
    && PObjects.Attach(child, p.base.windowId).Ok?
    && newChild == PObjects.Attach(child, p.base.windowId).value.obj
    && newChild.windowId == p.base.windowId
    && |emitted| >= 1
    && emitted[..|emitted| - 1] == PObjects.Attach(child, p.base.windowId).value.emitted
    && Decode(emitted[|emitted| - 1])
       == Some(Add(p.base.windowId, child.id, p.base.id,
                   Some(Field(TabText, StrV(tabText))), Some(Field(BeforeIndex, IntV(beforeIndex)))))
  }

  /** What a successful widget-tab insertion writes: the tab widget's
      attach, then the child's, then one ADD of the child under the panel
      with TAB_WIDGET then BEFORE_INDEX. */
  predicate AttachesBothThenAdds(p: TabLayoutPanel, child: PObject, tab: PObject, beforeIndex: int,
                                 newChild: PObject, newTab: PObject, emitted: seq<Instruction>)
  {
    && PObjects.Attach(tab, p.base.windowId).Ok? && PObjects.Attach(child, p.base.windowId).Ok?
    && var tabAttach := PObjects.Attach(tab, p.base.windowId).value;
       var childAttach := PObjects.Attach(child, p.base.windowId).value;
       && newTab == tabAttach.obj && newChild == childAttach.obj
       && newTab.windowId == p.base.windowId && newChild.windowId == p.base.windowId
       && |emitted| == |tabAttach.emitted| + |childAttach.emitted| + 1
       && emitted[..|tabAttach.emitted|] == tabAttach.emitted
       && emitted[|tabAttach.emitted|..|emitted| - 1] == childAttach.emitted
       && Decode(emitted[|emitted| - 1])
          == Some(Add(p.base.windowId, child.id, p.base.id,
                      Some(Field(TabWidget, IntV(tab.id))), Some(Field(BeforeIndex, IntV(beforeIndex)))))
  }

  /** The outcome of a successful text-tab insertion. */
  datatype Inserted = Inserted(panel: TabLayoutPanel, child: PObject, emitted: seq<Instruction>)

  /** insert(child, tabText, beforeIndex): refused before any change when
      the child belongs to another window; otherwise the child becomes tab
      beforeIndex, is attached to the panel's window (creating it remotely
      if needed), and an ADD with TAB_TEXT then BEFORE_INDEX follows. */
  function InsertText(p: TabLayoutPanel, child: PObject, tabText: string, beforeIndex: int): (r: Result<Inserted>)
    ensures !ChildWindowOk(p, child) ==> r == Err(IllegalAccess)
    ensures ChildWindowOk(p, child) ==> (r.Err? <==> !(0 <= beforeIndex <= WidgetCount(p)))
    ensures r.Err? ==> r.error in {IllegalAccess, IndexOutOfBounds}
    ensures r.Ok? ==>
              && 0 <= beforeIndex <= WidgetCount(p)
              && r.value.panel == p.(children := InsertAt(p.children, beforeIndex, child.id))
    ensures r.Ok? ==> AttachesThenAdds(p, child, tabText, beforeIndex, r.value.child, r.value.emitted)
  {
    if !ChildWindowOk(p, child) then Err(IllegalAccess)
    else if !(0 <= beforeIndex <= |p.children|) then Err(IndexOutOfBounds)
    else
      var a := AttachTo(child, p.base.windowId);
      var add := SaveAdd(a.obj, child.id, p.base.id,
                         Some(Field(TabText, StrV(tabText))), Some(Field(BeforeIndex, IntV(beforeIndex))));
      Ok(Inserted(p.(children := InsertAt(p.children, beforeIndex, child.id)), a.obj, a.emitted + [add]))
  }

  /** The outcome of a successful widget-tab insertion. */
  datatype InsertedWithTab = InsertedWithTab(panel: TabLayoutPanel, child: PObject, tab: PObject, emitted: seq<Instruction>)

  /** The panel state and emissions at the point insert(child, tabWidget,
      beforeIndex) returns or throws, with the exception if it threw. */
  datatype Partial = Partial(panel: TabLayoutPanel, child: PObject, tab: PObject, emitted: seq<Instruction>, failure: Option<Error>)

  /** The checks the widget-tab insertion makes before it changes the
      children: the child is not the panel, is in no other window, and the
      index is a tab position. */
  predicate ChildChecksPass(p: TabLayoutPanel, child: PObject, beforeIndex: int) {
    child.id != p.base.id && ChildWindowOk(p, child) && 0 <= beforeIndex <= WidgetCount(p)
  }

  /** insert(child, tabWidget, beforeIndex) as written: the tab widget's
      window is only looked at when the tab widget is attached, after the
      child has already been placed among the panel's children. */
  function InsertWidgetAsWritten(p: TabLayoutPanel, child: PObject, tab: PObject, beforeIndex: int): (r: Partial)
    ensures child.id == p.base.id ==> r.failure == Some(IllegalArgument)
    ensures r.failure.Some? <==>
              || child.id == p.base.id || !ChildWindowOk(p, child)
              || !(0 <= beforeIndex <= WidgetCount(p)) || !CanAttach(tab, p.base.windowId)
    ensures r.failure.Some? ==> r.emitted == [] && r.child == child && r.tab == tab
    ensures ChildChecksPass(p, child, beforeIndex) ==>
              r.panel == p.(children := InsertAt(p.children, beforeIndex, child.id))
    ensures !ChildChecksPass(p, child, beforeIndex) ==> r.panel == p && r.failure.Some?
    ensures ChildChecksPass(p, child, beforeIndex) && !CanAttach(tab, p.base.windowId) ==>
              r.failure == Some(IllegalAccess)
    ensures r.failure.None? ==> AttachesBothThenAdds(p, child, tab, beforeIndex, r.child, r.tab, r.emitted)
  {
    if child.id == p.base.id then Partial(p, child, tab, [], Some(IllegalArgument))
    else if !ChildWindowOk(p, child) then Partial(p, child, tab, [], Some(IllegalAccess))
    else if !(0 <= beforeIndex <= |p.children|) then Partial(p, child, tab, [], Some(IndexOutOfBounds))
    else
      var q := p.(children := InsertAt(p.children, beforeIndex, child.id));
      if !CanAttach(tab, p.base.windowId) then Partial(q, child, tab, [], Some(IllegalAccess))
      else
        var t := AttachTo(tab, p.base.windowId);
        var c := AttachTo(child, p.base.windowId);
        var add := SaveAdd(c.obj, child.id, p.base.id,
                           Some(Field(TabWidget, IntV(tab.id))), Some(Field(BeforeIndex, IntV(beforeIndex))));
        Partial(q, c.obj, t.obj, t.emitted + c.emitted + [add], None)
  }

  /** A tab widget that lives in another window makes the call throw with
      the child already counted as a tab, while no ADD reached the remote
      side: the server's tab list and the remote one disagree. */
  lemma InsertWidgetAsWrittenLeavesOrphanTab(p: TabLayoutPanel, child: PObject, tab: PObject, beforeIndex: int)
    requires child.id != p.base.id && ChildWindowOk(p, child) && 0 <= beforeIndex <= WidgetCount(p)
    requires tab.windowId != EMPTY_WINDOW_ID && tab.windowId != p.base.windowId
    ensures var r := InsertWidgetAsWritten(p, child, tab, beforeIndex);
            && r.failure == Some(IllegalAccess)
            && r.emitted == []
            && WidgetCount(r.panel) == WidgetCount(p) + 1
            && r.panel.children[beforeIndex] == child.id
  {
  }

  /** insert(child, tabWidget, beforeIndex) with every check made before
      anything changes: the child may not be the panel itself, both the
      child and the tab widget must be unattached or in the panel's window,
      and the index must be a tab position. The tab widget is then attached
      before the child, and the ADD carries TAB_WIDGET then BEFORE_INDEX. */
  function InsertWidget(p: TabLayoutPanel, child: PObject, tab: PObject, beforeIndex: int): (r: Result<InsertedWithTab>)
    ensures child.id == p.base.id ==> r == Err(IllegalArgument)
    ensures r.Err? <==>
              || child.id == p.base.id || !ChildWindowOk(p, child)
              || !(0 <= beforeIndex <= WidgetCount(p)) || !CanAttach(tab, p.base.windowId)
    ensures r.Ok? ==>
              && 0 <= beforeIndex <= WidgetCount(p)
              && r.value.panel == p.(children := InsertAt(p.children, beforeIndex, child.id))
    ensures r.Ok? ==> AttachesBothThenAdds(p, child, tab, beforeIndex, r.value.child, r.value.tab, r.value.emitted)
  {
    if child.id == p.base.id then Err(IllegalArgument)
    else if !ChildWindowOk(p, child) then Err(IllegalAccess)
    else if !(0 <= beforeIndex <= |p.children|) then Err(IndexOutOfBounds)
    else if !CanAttach(tab, p.base.windowId) then Err(IllegalAccess)
    else
      var t := AttachTo(tab, p.base.windowId);
      var c := AttachTo(child, p.base.windowId);
      var add := SaveAdd(c.obj, child.id, p.base.id,
                         Some(Field(TabWidget, IntV(tab.id))), Some(Field(BeforeIndex, IntV(beforeIndex))));
      Ok(InsertedWithTab(p.(children := InsertAt(p.children, beforeIndex, child.id)), c.obj, t.obj, t.emitted + c.emitted + [add]))
  }

  /** The corrected insertion fails with the same exception as the code as
      written, and where the code as written completes, both agree on every
      result; they differ only in that the corrected one leaves the panel
      untouched when it fails. */
  lemma InsertWidgetAgreesWithAsWritten(p: TabLayoutPanel, child: PObject, tab: PObject, beforeIndex: int)
    ensures var w := InsertWidgetAsWritten(p, child, tab, beforeIndex);
            var r := InsertWidget(p, child, tab, beforeIndex);
            && (r.Err? <==> w.failure.Some?)
            && (r.Err? ==> w.failure == Some(r.error))
            && (r.Ok? ==> r.value == InsertedWithTab(w.panel, w.child, w.tab, w.emitted))
  {
  }

  /** A panel created in the main window and a new child inserted as its
      first tab: the child's CREATE, then the ADD naming the panel as
      parent, neither carrying a window tag. */
  lemma FirstTabInMainWindow(s: Session, childKind: WidgetType, tabText: string)
    requires Valid(s)
    ensures var np := NewTabLayoutPanel(s);
            var attached := AttachPanel(np.panel, MAIN_WINDOW_ID);
            var c := Construct(np.session, childKind, EMPTY_WINDOW_ID, []);
            && attached.Ok?
            && var r := InsertText(attached.value.state, c.obj, tabText, 0);
               && r.Ok?
               && |r.value.emitted| == 2
               && Decode(r.value.emitted[0]) == Some(Create(MAIN_WINDOW_ID, c.obj.id, childKind, []))
               && Decode(r.value.emitted[1])
                  == Some(Add(MAIN_WINDOW_ID, c.obj.id, np.panel.base.id,
                              Some(Field(TabText, StrV(tabText))), Some(Field(BeforeIndex, IntV(0)))))
               && r.value.emitted[0][0].tag != WindowId && r.value.emitted[1][0].tag != WindowId
               && r.value.panel.children == [c.obj.id]
  {
  }

  /** add(widget, tabText): insertion at the current widget count. */
  function AddText(p: TabLayoutPanel, child: PObject, tabText: string): (r: Result<Inserted>)
    ensures r.Err? <==> !ChildWindowOk(p, child)
    ensures r.Err? ==> r.error == IllegalAccess
    ensures r.Ok? ==> r.value.panel == p.(children := p.children + [child.id])
    ensures r.Ok? ==> AttachesThenAdds(p, child, tabText, WidgetCount(p), r.value.child, r.value.emitted)
  {
    InsertAtEndAppends(p.children, child.id);
    InsertText(p, child, tabText, WidgetCount(p))
  }

  /** add(widget, tabWidget): the insertion as written at the current
      widget count. A tab widget from another window makes it throw with
      the child already appended to the children. */
  function AddWidget(p: TabLayoutPanel, child: PObject, tab: PObject): (r: Partial)
    ensures r.failure.Some? <==>
              child.id == p.base.id || !ChildWindowOk(p, child) || !CanAttach(tab, p.base.windowId)
    ensures child.id != p.base.id && ChildWindowOk(p, child) ==> r.panel == p.(children := p.children + [child.id])
    ensures child.id == p.base.id || !ChildWindowOk(p, child) ==> r.panel == p
    ensures r.failure.Some? ==> r.emitted == [] && r.child == child && r.tab == tab
    ensures r.failure.None? ==> AttachesBothThenAdds(p, child, tab, WidgetCount(p), r.child, r.tab, r.emitted)
  {
    InsertAtEndAppends(p.children, child.id);
    InsertWidgetAsWritten(p, child, tab, WidgetCount(p))
  }

  /** add(widget, tabWidget) over the corrected insertion: a refused call
      leaves the panel as it was. */
  function AddWidgetCorrected(p: TabLayoutPanel, child: PObject, tab: PObject): (r: Result<InsertedWithTab>)
    ensures r.Err? <==> child.id == p.base.id || !ChildWindowOk(p, child) || !CanAttach(tab, p.base.windowId)
    ensures r.Ok? ==> r.value.panel == p.(children := p.children + [child.id])
    ensures r.Ok? ==> AttachesBothThenAdds(p, child, tab, WidgetCount(p), r.value.child, r.value.tab, r.value.emitted)
  {
    InsertAtEndAppends(p.children, child.id);
    InsertWidget(p, child, tab, WidgetCount(p))
  }

  /** Each add form is exactly its insert at the current widget count. */
  lemma AddIsInsertAtCount(p: TabLayoutPanel, child: PObject, tabText: string, tab: PObject)
    ensures AddText(p, child, tabText) == InsertText(p, child, tabText, WidgetCount(p))
    ensures AddWidget(p, child, tab) == InsertWidgetAsWritten(p, child, tab, WidgetCount(p))
    ensures AddWidgetCorrected(p, child, tab) == InsertWidget(p, child, tab, WidgetCount(p))
  {
  }

  /** add(widget) without a tab is refused, whatever the widget. */
  function AddWithoutTab(p: TabLayoutPanel, child: PObject): (r: Result<Inserted>)
    ensures r == Err(UnsupportedOperation)
  {
    Err(UnsupportedOperation)
  }

  // ---------------------------------------------------------------------
  // Selection

  /** selectTab(index) as written: only the upper bound is checked. */
  function SelectTabAsWritten(p: TabLayoutPanel, index: int): (r: Result<Step<TabLayoutPanel>>)
    ensures r.Err? <==> index >= WidgetCount(p)
    ensures r.Err? ==> r.error == IndexOutOfBounds
    ensures r.Ok? ==> r.value.state == p.(selectedItemIndex := Some(index))
    ensures r.Ok? ==> |r.value.emitted| == 1
                      && Decode(r.value.emitted[0]) == Some(Update(p.base.windowId, p.base.id, Field(SelectedIndex, IntV(index)), None))
  {
    if index >= |p.children| then Err(IndexOutOfBounds)
    else Ok(Step(p.(selectedItemIndex := Some(index)), [SaveUpdate(p.base, Field(SelectedIndex, IntV(index)), None)]))
  }

  /** A negative index passes the check: the panel records it and tells the
      remote side to select a tab that does not exist. */
  lemma SelectTabAsWrittenAcceptsNegative(p: TabLayoutPanel)
    ensures SelectTabAsWritten(p, -1).Ok?
    ensures SelectTabAsWritten(p, -1).value.state.selectedItemIndex == Some(-1)
  {
  }

  /** selectTab(index) with both bounds checked: it fails, changing nothing,
      unless index names a tab; then it records the selection and emits one
      UPDATE with SELECTED_INDEX. */
  function SelectTab(p: TabLayoutPanel, index: int): (r: Result<Step<TabLayoutPanel>>)
    ensures r.Err? <==> !(0 <= index < WidgetCount(p))
    ensures r.Err? ==> r.error == IndexOutOfBounds
    ensures r.Ok? ==> r.value.state == p.(selectedItemIndex := Some(index))
    ensures r.Ok? ==> |r.value.emitted| == 1
                      && Decode(r.value.emitted[0]) == Some(Update(p.base.windowId, p.base.id, Field(SelectedIndex, IntV(index)), None))
  {
    if index < 0 || index >= |p.children| then Err(IndexOutOfBounds)
    else Ok(Step(p.(selectedItemIndex := Some(index)), [SaveUpdate(p.base, Field(SelectedIndex, IntV(index)), None)]))
  }

  /** The two agree on every index the corrected check admits and on every
      index past the last tab. */
  lemma SelectTabAgreesWithAsWritten(p: TabLayoutPanel, index: int)
    requires index >= 0
    ensures SelectTab(p, index) == SelectTabAsWritten(p, index)
  {
  }

  /** onSelection(event): the selected tab becomes the event's item. */
  function OnSelection(p: TabLayoutPanel, item: int): (r: TabLayoutPanel)
    ensures r.selectedItemIndex == Some(item)
    ensures r.(selectedItemIndex := p.selectedItemIndex) == p
  {
    p.(selectedItemIndex := Some(item))
  }

  /** A selection reported by the remote side leaves the server in the
      state a server-side selectTab of the same tab would, without sending
      anything back. */
  lemma OnSelectionMatchesSelectTab(p: TabLayoutPanel, item: int)
    requires 0 <= item < WidgetCount(p)
    ensures SelectTab(p, item).Ok?
    ensures OnSelection(p, item) == SelectTab(p, item).value.state
    ensures OnSelection(OnSelection(p, item), item) == OnSelection(p, item)
  {
  }

  // ---------------------------------------------------------------------
  // Handlers

  /** The position of the first occurrence of x in s. */
  function IndexOf(s: seq<HandlerId>, x: HandlerId): (i: nat)
    requires x in s
    ensures i < |s| && s[i] == x && x !in s[..i]
  {
    if s[0] == x then 0 else 1 + IndexOf(s[1..], x)
  }

  /** List.remove(Object): drops the first occurrence, if any. */
  function RemoveFirst(s: seq<HandlerId>, x: HandlerId): (r: seq<HandlerId>)
    ensures x !in s ==> r == s
    ensures multiset(r) == multiset(s) - multiset{x}
    decreases |s|
  {
    if |s| == 0 then []
    else if s[0] == x then
      assert s == [s[0]] + s[1..];
      s[1..]
    else
      assert s == [s[0]] + s[1..];
      [s[0]] + RemoveFirst(s[1..], x)
  }

  /** What remains is everything before the first occurrence followed by
      everything after it, in the original order. */
  lemma {:induction false} RemoveFirstKeepsOrder(s: seq<HandlerId>, x: HandlerId)
    requires x in s
    ensures RemoveFirst(s, x) == s[..IndexOf(s, x)] + s[IndexOf(s, x) + 1..]
    decreases |s|
  {
    if s[0] == x {
      assert IndexOf(s, x) == 0;
      assert s[..0] + s[1..] == s[1..];
    } else {
      var t := s[1..];
      var i := IndexOf(t, x);
      RemoveFirstKeepsOrder(t, x);
      assert IndexOf(s, x) == i + 1;
      assert RemoveFirst(s, x) == [s[0]] + RemoveFirst(t, x);
      DropAfterHead(s, i);
    }
  }

  /** Dropping position i of the tail is dropping position i + 1 of the
      whole sequence. */
  lemma DropAfterHead(s: seq<HandlerId>, i: nat)
    requires i + 1 < |s|
    ensures [s[0]] + (s[1..][..i] + s[1..][i + 1..]) == s[..i + 1] + s[i + 2..]
  {
    assert s[..i + 1] == [s[0]] + s[1..][..i];
    assert s[i + 2..] == s[1..][i + 1..];
  }

  /** addBeforeSelectionHandler(h): registers h last and asks the remote
      side for before-selection events, on every call. */
  function AddBeforeSelectionHandler(p: TabLayoutPanel, h: HandlerId): (r: Step<TabLayoutPanel>)
    ensures r.state == p.(beforeSelectionHandlers := p.beforeSelectionHandlers + [h])
    ensures |r.emitted| == 1
    ensures Decode(r.emitted[0]) == Some(AddHandler(p.base.windowId, HandlerBeforeSelection, p.base.id))
  {
    Step(p.(beforeSelectionHandlers := p.beforeSelectionHandlers + [h]), [SaveAddHandler(p.base, HandlerBeforeSelection)])
  }

  /** removeBeforeSelectionHandler(h): server side only. */
  function RemoveBeforeSelectionHandler(p: TabLayoutPanel, h: HandlerId): (r: TabLayoutPanel)
    ensures multiset(r.beforeSelectionHandlers) == multiset(p.beforeSelectionHandlers) - multiset{h}
    ensures h !in p.beforeSelectionHandlers ==> r == p
    ensures h in p.beforeSelectionHandlers ==>
              var i := IndexOf(p.beforeSelectionHandlers, h);
              r.beforeSelectionHandlers == p.beforeSelectionHandlers[..i] + p.beforeSelectionHandlers[i + 1..]
    ensures r.(beforeSelectionHandlers := p.beforeSelectionHandlers) == p
  {
    var s := p.beforeSelectionHandlers;
    assert h in s ==> RemoveFirst(s, h) == s[..IndexOf(s, h)] + s[IndexOf(s, h) + 1..] by {
      if h in s { RemoveFirstKeepsOrder(s, h); }
    }
    p.(beforeSelectionHandlers := RemoveFirst(s, h))
  }

  /** addSelectionHandler(h): server side only; the remote subscription was
      made once by init0. */
  function AddSelectionHandler(p: TabLayoutPanel, h: HandlerId): (r: TabLayoutPanel)
    ensures |r.selectionHandlers| == |p.selectionHandlers| + 1 && r.selectionHandlers[|p.selectionHandlers|] == h
    ensures r.selectionHandlers[..|p.selectionHandlers|] == p.selectionHandlers
    ensures r.(selectionHandlers := p.selectionHandlers) == p
  {
    p.(selectionHandlers := p.selectionHandlers + [h])
  }

  /** removeSelectionHandler(h): server side only. */
  function RemoveSelectionHandler(p: TabLayoutPanel, h: HandlerId): (r: TabLayoutPanel)
    ensures multiset(r.selectionHandlers) == multiset(p.selectionHandlers) - multiset{h}
    ensures h !in p.selectionHandlers ==> r == p
    ensures h in p.selectionHandlers ==>
              var i := IndexOf(p.selectionHandlers, h);
              r.selectionHandlers == p.selectionHandlers[..i] + p.selectionHandlers[i + 1..]
    ensures r.(selectionHandlers := p.selectionHandlers) == p
  {
    var s := p.selectionHandlers;
    assert h in s ==> RemoveFirst(s, h) == s[..IndexOf(s, h)] + s[IndexOf(s, h) + 1..] by {
      if h in s { RemoveFirstKeepsOrder(s, h); }
    }
    p.(selectionHandlers := RemoveFirst(s, h))
  }

  /** Adding a selection handler and removing it again restores the list
      when it was not registered before. */
  lemma AddThenRemoveSelectionHandler(p: TabLayoutPanel, h: HandlerId)
    requires h !in p.selectionHandlers
    ensures RemoveSelectionHandler(AddSelectionHandler(p, h), h) == p
  {
    var s := p.selectionHandlers + [h];
    assert IndexOf(s, h) == |p.selectionHandlers|;
    assert s[..|p.selectionHandlers|] == p.selectionHandlers;
    RemoveFirstKeepsOrder(s, h);
  }

  // ---------------------------------------------------------------------
  // Inbound events

  /** Each handler in order receives the integer under the key; the integer
      is read once per handler, so with no handlers nothing is read. */
  function SelectionCalls(handlers: seq<HandlerId>, source: int, v: InValue, before: bool): (r: Result<seq<Call>>)
    ensures |handlers| == 0 ==> r == Ok([])
    ensures |handlers| > 0 ==> (r.Ok? <==> v.Num?)
    ensures r.Err? ==> r.error == ClassCast
    ensures r.Ok? && |handlers| > 0 ==>
              && |r.value| == |handlers|
              && forall i :: 0 <= i < |handlers| ==>
                   r.value[i] == (if before then BeforeSelectionCall(handlers[i], source, v.n)
                                  else SelectionCall(handlers[i], source, v.n))
  {
    if |handlers| == 0 then Ok([])
    else match v
      case Num(n) =>
        Ok(seq(|handlers|, i requires 0 <= i < |handlers| =>
                 if before then BeforeSelectionCall(handlers[i], source, n) else SelectionCall(handlers[i], source, n)))
      case _ => Err(ClassCast)
  }

  /** onClientData(event): a selection key goes to the selection handlers;
      otherwise a before-selection key goes to the before-selection
      handlers; otherwise the base object handles the event. */
  function OnClientData(p: TabLayoutPanel, event: Event): (r: Result<seq<Call>>)
    ensures KeyHandlerSelection in event ==>
              r == SelectionCalls(p.selectionHandlers, p.base.id, event[KeyHandlerSelection], false)
    ensures KeyHandlerSelection !in event && KeyHandlerBeforeSelection in event ==>
              r == SelectionCalls(p.beforeSelectionHandlers, p.base.id, event[KeyHandlerBeforeSelection], true)
    ensures KeyHandlerSelection !in event && KeyHandlerBeforeSelection !in event ==>
              r == PObjects.OnClientData(p.base, event)
  {
    if KeyHandlerSelection in event then
      SelectionCalls(p.selectionHandlers, p.base.id, event[KeyHandlerSelection], false)
    else if KeyHandlerBeforeSelection in event then
      SelectionCalls(p.beforeSelectionHandlers, p.base.id, event[KeyHandlerBeforeSelection], true)
    else PObjects.OnClientData(p.base, event)
  }

  /** The selection key takes precedence: with both keys present, only the
      selection handlers run, each exactly once and in registration order,
      and no before-selection handler runs. */
  lemma SelectionTakesPrecedence(p: TabLayoutPanel, event: Event)
    requires KeyHandlerSelection in event && KeyHandlerBeforeSelection in event
    requires event[KeyHandlerSelection].Num?
    ensures var r := OnClientData(p, event);
            && r.Ok?
            && |r.value| == |p.selectionHandlers|
            && (forall i :: 0 <= i < |r.value| ==> r.value[i].SelectionCall? && r.value[i].handler == p.selectionHandlers[i])
            && (forall c :: c in r.value ==> !c.BeforeSelectionCall? && !c.NativeCall?)
  {
  }

  // ---------------------------------------------------------------------
  // Animation

  /** setAnimationDuration(d): nothing happens when d is the current
      duration; otherwise d is stored and one UPDATE with
      ANIMATION_DURATION in milliseconds is emitted. */
  function SetAnimationDuration(p: TabLayoutPanel, d: Duration): (r: Step<TabLayoutPanel>)
    ensures p.animationDuration == Some(d) ==> r == Step(p, [])
    ensures p.animationDuration != Some(d) ==>
              && r.state == p.(animationDuration := Some(d))
              && |r.emitted| == 1
              && Decode(r.emitted[0]) == Some(Update(p.base.windowId, p.base.id, Field(AnimationDuration, IntV(d.millis)), None))
  {
    if p.animationDuration == Some(d) then Step(p, [])
    else Step(p.(animationDuration := Some(d)), [SaveUpdate(p.base, Field(AnimationDuration, IntV(d.millis)), None)])
  }

  /** Setting the same duration twice emits once: the second call is silent. */
  lemma SetAnimationDurationIdempotent(p: TabLayoutPanel, d: Duration)
    ensures var first := SetAnimationDuration(p, d);
            SetAnimationDuration(first.state, d) == Step(first.state, [])
  {
  }

  /** animate(d): one UPDATE with ANIMATE in milliseconds; no state. */
  function AnimateTabs(p: TabLayoutPanel, d: Duration): (r: Step<TabLayoutPanel>)
    ensures r.state == p && |r.emitted| == 1
    ensures Decode(r.emitted[0]) == Some(Update(p.base.windowId, p.base.id, Field(Animate, IntV(d.millis)), None))
  {
    Step(p, [SaveUpdate(p.base, Field(Animate, IntV(d.millis)), None)])
  }

  /** setAnimationVertical(b): one UPDATE with VERTICAL; no state. */
  function SetAnimationVertical(p: TabLayoutPanel, isVertical: bool): (r: Step<TabLayoutPanel>)
    ensures r.state == p && |r.emitted| == 1
    ensures Decode(r.emitted[0]) == Some(Update(p.base.windowId, p.base.id, Field(Vertical, BoolV(isVertical)), None))
  {
    Step(p, [SaveUpdate(p.base, Field(Vertical, BoolV(isVertical)), None)])
  }
}

=== FILE: wire.dfy ===
/** The vocabulary shared by the server-side encoder and the remote decoder:
    the closed tag enumeration, the values a field can carry and the
    window identifiers. One instruction is an ordered sequence of fields. */
module Wire {

  /** Window affinity of an object not yet attached to any window. */
  const EMPTY_WINDOW_ID: int := -1

  /** The main window: its identifier is never written on the wire. */
  const MAIN_WINDOW_ID: int := 0

  /** Server-to-client tags (ServerToClientModel). Every instruction
      starts with an optional WindowId field and then one operation tag
      (TypeCreate, TypeAdd, TypeUpdate, TypeAddHandler, TypeRemoveHandler,
      TypeRemove); the remaining tags name properties. */
  datatype Tag =
    | WindowId | TypeCreate | WidgetKind | TypeAdd | ParentObjectId
    | TypeAddHandler | TypeRemoveHandler | TypeRemove | TypeUpdate | ObjectId
    | Bind | Native | SelectedIndex | Animate | AnimationDuration | Vertical
    | HorizontalAlignment | VerticalAlignment | TabWidget | TabText | BeforeIndex

  /** The concrete kind the remote runtime instantiates on CREATE. */
  datatype WidgetType = HorizontalPanelKind | TabLayoutPanelKind | OtherKind(code: nat)

  /** Categories of remote events a handler can subscribe to. */
  datatype HandlerModel = HandlerSelection | HandlerBeforeSelection

  /** Horizontal and vertical cell alignments of the terminal. */
  datatype HAlign = AlignLeft | AlignCenter | AlignRight
  datatype VAlign = AlignTop | AlignMiddle | AlignBottom

  /** An opaque structured payload; its contents are never inspected. */
  datatype Json = Json(handle: nat)

  /** A field value. Enumerations are written as their wire value,
      which the model keeps symbolic. */
  datatype Value =
    | IntV(i: int)
    | StrV(s: string)
    | BoolV(b: bool)
    | JsonV(j: Json)
    | NullV
    | WidgetV(w: WidgetType)
    | HandlerV(h: HandlerModel)
    | HAlignV(ha: HAlign)
    | VAlignV(va: VAlign)

  datatype Field = Field(tag: Tag, value: Value)

  /** One instruction: the fields written between beginObject and endObject. */
  type Instruction = seq<Field>

  /** Durations are compared as values; only their millisecond count is sent. */
  datatype Duration = Duration(millis: nat)
}
